=== FILE: README.md ===
# Paparazzi: request-to-render model

A Dafny model of the render worker of tangram-es's `paparazzi` service.
The worker keeps a small view record: scene, physical width and height, pixel
scale, longitude, latitude, zoom, tilt and rotation. Its setters compare a
requested value with the stored one. Only when the two differ does a setter
store the value, call the map engine and pump the engine until it is idle or
100 s have passed. `Paparazzi::work` turns one HTTP request into a sequence of
setter calls, a render and a response.

The model is functional:

- `Engine`: the map engine and the GL context are an append-only trace of
  the calls that change what they hold (`LoadScene`, `SetPixelScale`, `Resize`, `SetPosition`, `SetZoom`,
  `SetTilt`, `SetRotation`, `Update`, `Render`, `GlResize`). `Replay` gives the
  view parameters a trace leaves the engine holding.
- `UpdateLoop`: the pump loop. The engine's answers and the clock are
  functions of the call history (`Env`). `Progress` assumes that wall-clock
  time passes across each engine update call.
- `Paparazzi`: the view record (`View`), the worker (`World` = view, trace and
  the cache files written), and the seven setters and the constructor as pure
  functions. `Mirrors` says the engine holds what the view record says;
  `CacheConsistent` says every cache file holds content hashing to its name.
- `Numbers`: the C++ conversions the handler uses: `std::stoi`, `std::stof`/`std::stod`,
  `std::to_string`, and `istringstream >> int`.
- `Request`: query presence, the tile-path pattern `\/(\d*)\/(\d*)\/(\d*)\.png`
  under `std::regex_search` (a hand-written leftmost matcher, proved equal to
  a declarative definition of a match), density, tilt and rotation, and the
  tile-centre longitude.
- `Dispatch`: `work`. `PlanOf` reads the whole request without side effects
  and is the reference the handler is proved against. It gives the response,
  the fault, and the view record the request leaves.
- `Findings`: two places where the code does something other than what it
  evidently means, each modelled as written next to the corrected version.

The MD5 of an inline scene and the latitude of a tile row (inverse Mercator
trigonometry) are parameters of the model (`Collab.md5`, `Collab.tileLat`).

What the code does, in the places a reader might expect otherwise:

- The image body is empty. The pixel read-back after `render` is commented out
  (paparazzi/src/paparazzi.cpp:348-364), so the 200 response carries `""` with
  the PNG content type.
- The tile pattern's groups are `\d*`, so an empty group matches; it reads as
  0 through `istringstream` (`Dispatch.TilePlacement`).
- The zoom and the tile's column and row are not range-checked. A column
  beyond the last one gives a longitude outside (-180, 180).
- An inline scene is written to the cache again whenever the worker switches
  back to it: the hash is compared only with the current scene.
- The tile `/2/1/1.png` is centred on longitude -45 at zoom 2
  (`Dispatch.TileTwoOneOne`), and at density 1 its map is resized to
  256 · `AA_SCALE` = 512 pixels square.
- In the tile branch the handler sets the zoom before the position
  (`Dispatch.PlaceTile`); in the explicit branch it sets the position first
  (`Dispatch.ExplicitStep`).

The model follows the code except for the simplifications listed under
"## Left out" (floating point and the notations `std::stod` accepts beyond
plain decimals among them) and the two places listed under "## Findings".
At those two places the handler is built on the corrected `setSize` and
`setSceneContent`; the as-written versions agree with them when both scaled
sizes are whole numbers and the scene body has no NUL
(`Findings.SetSizeAsWrittenAgrees`, `Findings.SetSceneContentAsWrittenAgrees`).
"## Left out" names the members whose clauses rest on the corrections.

## Model

| member | source | states |
|---|---|---|
| `Paparazzi.Trunc` | paparazzi/src/paparazzi.cpp:88-89 | Storing a scaled size in an `int` truncates toward zero: the result is within 1 of the value, on the side of 0. |
| `Paparazzi.CachePathInjective` | paparazzi/src/paparazzi.cpp:148 | Two different scene hashes never name the same cache file. |
| `Paparazzi.SetZoom` | paparazzi/src/paparazzi.cpp:101-106 | An unchanged zoom leaves the worker exactly as it was. A new zoom is stored and followed by exactly one `setZoom` call and one complete pump. Calls are only appended, no render is made, and the engine keeps mirroring the view record. |
| `Paparazzi.SetTilt` | paparazzi/src/paparazzi.cpp:108-113 | As for zoom. The tilt is stored in degrees and pushed in radians. |
| `Paparazzi.SetRotation` | paparazzi/src/paparazzi.cpp:114-120 | As for tilt, for the rotation. |
| `Paparazzi.SetPosition` | paparazzi/src/paparazzi.cpp:122-129 | Skipped only when both longitude and latitude are unchanged. Otherwise both are stored together and pushed as one `setPosition(lon, lat)` call, then a pump. |
| `Paparazzi.SetScene` | paparazzi/src/paparazzi.cpp:131-136 | A scene URL equal to the current scene changes nothing. A new one is stored, loaded by that URL and pumped. |
| `Paparazzi.CacheWriteConsistent` | paparazzi/src/paparazzi.cpp:140-151 | Writing content to the cache file named by its own hash keeps every cache file's content hashing to its name. |
| `Paparazzi.SetSceneContent` | paparazzi/src/paparazzi.cpp:138-155 | The scene id is the hash of the content. Content whose hash is the current scene writes nothing and loads nothing. New content is written to `cache/<hash>.yaml`, that path is loaded and the engine is pumped. The cache stays consistent and the engine keeps mirroring the view. |
| `Paparazzi.SizeCallsReplay` | paparazzi/src/paparazzi.cpp:92-95 | `setSize` changes the engine's pixel scale only when it differs, and always sets the map size to the physical size times `AA_SCALE`. |
| `Paparazzi.ApplySize` | paparazzi/src/paparazzi.cpp:88-98 | A real resize stores the physical (density-scaled, truncated) sizes. It issues `setPixelScale` only on a change, resizes the map, pumps, and then resizes the GL context to the physical size as the last call. |
| `Paparazzi.ApplySizeMirrors` | paparazzi/src/paparazzi.cpp:84-99 | A resize keeps the engine's scale, map size and GL size equal to the view record. |
| `Paparazzi.SetSize` | paparazzi/src/paparazzi.cpp:84-99 | Afterwards the requested size, density and scale are in place. When they already were, nothing changes. Otherwise the resize happens as `ApplySize` states, and the engine keeps mirroring the view. |
| `Paparazzi.Init` | paparazzi/src/paparazzi.cpp:39-79 | A new worker holds scene `scene.yaml`, 100x100 pixels, pixel scale `AA_SCALE`, and position, zoom, tilt and rotation 0. Its calls are the start-up calls followed by one pump; the final `setSize(100, 100, 1.0)` finds everything in place. No file is written, and the engine mirrors the view. |
| `Paparazzi.SettersIdempotent` | paparazzi/src/paparazzi.cpp:84-155 | Repeating any of the seven setters with the same arguments gives the same worker as calling it once. |
| `UpdateLoop.RunUpdateLoop` | paparazzi/src/paparazzi.cpp:157-171 | The loop makes exactly the number of update calls at which the engine first reports finished or 100 s have elapsed, which is the number `Pump` appends. It returns the engine's last answer. |
| `UpdateLoop.PumpFrom` | paparazzi/src/paparazzi.cpp:162-169 | Counting on from `k` calls with no earlier stop reaches the first stop. This terminates because the clock advances. |
| `UpdateLoop.Pump` | paparazzi/src/paparazzi.cpp:157-171 | One pump appends exactly the loop's update calls. It leaves the engine's view parameters unchanged and makes no render. |
| `UpdateLoop.ClockAdvances` | paparazzi/src/paparazzi.cpp:158-165 | After `k` update calls at least `k` ms have passed. |
| `UpdateLoop.PumpBounded` | paparazzi/src/paparazzi.cpp:6 | Under `Progress` (at least 1 ms passes across each update call), a pump ends after at most 100000 update calls, even if the engine never reports finished. The code itself bounds only the elapsed time. |
| `UpdateLoop.PumpStopsWhenFinished` | paparazzi/src/paparazzi.cpp:162-166 | A pump makes no update call after the first one that reports finished. |
| `Numbers.NatToStringRoundTrip` | paparazzi/src/paparazzi.cpp:249 | The decimal heart beat of a body size reads back as that size. |
| `Numbers.ParseInt` | paparazzi/src/paparazzi.cpp:285-287 | `std::stoi` fails when no digit follows the white space and sign. A value it returns fits in 32 bits. |
| `Numbers.ParseIntRoundTrip` | paparazzi/src/paparazzi.cpp:285-287 | `std::stoi` reads the decimal text of every 32-bit integer back as that integer. |
| `Numbers.ParseReal` | paparazzi/src/paparazzi.cpp:288-290 | For plain decimal text, `std::stod`/`std::stof` fail exactly when, after the white space and sign, there is neither a digit nor a point followed by a digit. A negative result needs a leading '-'. |
| `Numbers.ParseRealDecimal` | paparazzi/src/paparazzi.cpp:288-290 | Digits, a point and digits read as the whole part plus the fraction the digits after the point denote. |
| `Numbers.ParseRealFortyPointSeven` | paparazzi/src/paparazzi.cpp:288-290 | The text "40.7" reads as 40.7. |
| `Numbers.ParseRealOfInt` | paparazzi/src/paparazzi.cpp:288-290 | `std::stod` reads the decimal text of every integer as that number. |
| `Numbers.FractionAt` | paparazzi/src/paparazzi.cpp:288-290 | The digits after a decimal point contribute a value in [0, 1). |
| `Numbers.StreamInt` | paparazzi/src/paparazzi.cpp:300-304 | `istringstream >> int` on a capture group gives the group's value when it fits, 0 for an empty group, and the `int` maximum when the value is too large. |
| `Numbers.StreamIntRoundTrip` | paparazzi/src/paparazzi.cpp:300-304 | `istringstream >> int` reads the decimal text of a number back as that number, or as the `int` maximum when it is larger. |
| `Numbers.DigitRunUnique` | paparazzi/src/paparazzi.cpp:294 | A maximal run of digits is determined by where it starts, so `\d*` before a non-digit has one way to match. |
| `Request.MatchAtSound` | paparazzi/src/paparazzi.cpp:294 | What the matcher finds at a position is a match of the tile pattern, with three digit-string groups. |
| `Request.MatchAtComplete` | paparazzi/src/paparazzi.cpp:294 | Every match of the tile pattern at a position is the one the matcher finds there. |
| `Request.SearchFrom` | paparazzi/src/paparazzi.cpp:297 | The search returns the first position at or after its start where the pattern matches, or reports that none does. |
| `Request.TileSearch` | paparazzi/src/paparazzi.cpp:294-304 | The groups `regex_search` returns are digit strings, so reading them with `istringstream` is defined. |
| `Request.TileSearchNone` | paparazzi/src/paparazzi.cpp:294-297 | `regex_search` fails exactly when the tile pattern matches nowhere in the path. |
| `Request.TileSearchLeftmost` | paparazzi/src/paparazzi.cpp:294-297 | When it succeeds, the groups are those of a match at a position with no match anywhere to its left. |
| `Request.ViewBranch` | paparazzi/src/paparazzi.cpp:257-297 | The explicit branch is taken exactly when all five of width, height, lat, lon and zoom are given, and then carries their first values. The tile branch is taken exactly when they are not all given and the search finds a tile, and then carries its groups. Otherwise neither is taken. |
| `Request.Density` | paparazzi/src/paparazzi.cpp:267-269 | The density is 1 when not given. When given, it fails exactly when it does not parse; otherwise it is the larger of 1 and the parsed value. |
| `Request.TileLonIsCentre` | paparazzi/src/paparazzi.cpp:312-313 | The longitude of a tile is halfway between the west edges of its column and the next. |
| `Request.TileLonInRange` | paparazzi/src/paparazzi.cpp:312-313 | For a column that exists at the zoom, the longitude lies strictly between -180 and 180. |
| `Dispatch.SceneOf` | paparazzi/src/paparazzi.cpp:239-255 | The scene is missing exactly when the query gives none and the body is empty. |
| `Dispatch.PlacementOf` | paparazzi/src/paparazzi.cpp:283-321 | Explicit fields fail only with a number-parsing fault. Without them, the request fails exactly when the search finds no tile in the path, and then with the no-view fault. |
| `Dispatch.ExplicitPlacement` | paparazzi/src/paparazzi.cpp:283-291 | With all five fields given, the placement succeeds exactly when width and height parse with `stoi`, lon and lat with `stod` and zoom with `stof`, and then holds the parsed values. Otherwise the fault names the first parser to reject a field, in the order width/height, lon/lat, zoom. |
| `Dispatch.TilePlacement` | paparazzi/src/paparazzi.cpp:298-317 | A tile request is placed at 256x256, the tile's zoom, the column's centre longitude and the row's latitude. An empty zoom group gives zoom 0. |
| `Dispatch.TileTwoOneOne` | paparazzi/src/paparazzi.cpp:292-317 | The path `/2/1/1.png` is placed at zoom 2 and longitude -45. |
| `Dispatch.OrientationOf` | paparazzi/src/paparazzi.cpp:326-344 | Tilt and rotation fail, with `stof`, exactly when one given value does not parse. A value not given is 0. |
| `Dispatch.PlanOf` | paparazzi/src/paparazzi.cpp:239-344 | A request can be fully read exactly when its scene, density, placement and orientation all can. The density is then at least 1. |
| `Dispatch.SceneStep` | paparazzi/src/paparazzi.cpp:239-255 | The scene step fails exactly as `SceneOf` does and then changes nothing. Otherwise it leaves the resolved scene in the view. |
| `Dispatch.PlaceTile` | paparazzi/src/paparazzi.cpp:298-317 | Setting a tile's size, zoom and position leaves exactly those fields in the view, and changes nothing when they were already in place. |
| `Dispatch.ExplicitStep` | paparazzi/src/paparazzi.cpp:283-291 | The explicit branch fails exactly as `PlacementOf` does. A bad width or height changes nothing. A bad coordinate leaves the new size in place. A bad zoom leaves the new size and position in place. Success leaves the requested placement. |
| `Dispatch.ViewStep` | paparazzi/src/paparazzi.cpp:283-322 | The view step fails exactly as `PlacementOf` does. The no-view fault changes nothing. |
| `Dispatch.OrientStep` | paparazzi/src/paparazzi.cpp:326-344 | The orientation step fails exactly as `OrientationOf` does. A bad tilt changes nothing. A bad rotation leaves the new tilt in place. Success leaves the requested tilt and rotation. |
| `Dispatch.RenderFrame` | paparazzi/src/paparazzi.cpp:348-362 | The render step is one complete pump followed by exactly one render. It does not change the view or the engine's view parameters. |
| `Dispatch.Finish` | paparazzi/src/paparazzi.cpp:283-362 | After the scene and density, the request either fails without rendering or renders exactly once, leaving the requested placement and orientation. |
| `Dispatch.Handle` | paparazzi/src/paparazzi.cpp:237-362 | The handler fails exactly with `PlanOf`'s fault, and then makes no render. A missing scene changes nothing. Any later fault keeps the new scene, and a bad density leaves exactly what the scene step left. On success it renders exactly once and leaves the view that `PlanOf` describes. A request already in place costs only a pump and the render. |
| `Dispatch.Work` | paparazzi/src/paparazzi.cpp:212-374 | `/check` answers 200 "OK" as text and changes nothing. Any other request answers 200 with the PNG content type exactly when `PlanOf` succeeds, and 400 "Bad Request" with the fault's message otherwise. The CORS header is listed first in every response. The heart beat is the scene URL or the body size. The engine keeps mirroring the view and the cache stays consistent. |
| `Dispatch.RepeatedRequestOnlyRenders` | paparazzi/src/paparazzi.cpp:212-374 | The same successful request a second time makes no call but one pump and the render, and gets the same response. |
| `Findings.SetSizeAsWritten` | paparazzi/src/paparazzi.cpp:84-99 | `setSize` with its no-change test as written: it compares the scaled sizes with the stored (truncated) ones. |
| `Findings.SetSizeAsWrittenRepeats` | paparazzi/src/paparazzi.cpp:85-89 | On a new worker, asking twice for 101x101 at density 1.5 resizes twice. |
| `Findings.SetSizeAsWrittenRepeatIff` | paparazzi/src/paparazzi.cpp:85-98 | As written, the same size request a second time is a no-op exactly when density × width and density × height are whole numbers; otherwise it resizes again. |
| `Findings.SetSizeAsWrittenAgrees` | paparazzi/src/paparazzi.cpp:84-99 | When both scaled sizes are whole numbers, `setSize` as written and the corrected `SetSize` give the same worker. |
| `Findings.SetSizeRepeatIsNoOp` | paparazzi/src/paparazzi.cpp:84-99 | With the corrected test, the same size request a second time changes nothing. |
| `Findings.CStr` | paparazzi/src/paparazzi.cpp:150 | `c_str()` written to a stream: the longest prefix without NUL, stopping at the first NUL. |
| `Findings.SetSceneContentAsWritten` | paparazzi/src/paparazzi.cpp:138-155 | `setSceneContent` writing the content only up to its first NUL. |
| `Findings.SetSceneContentAsWrittenAgrees` | paparazzi/src/paparazzi.cpp:138-155 | For a body without a NUL, `setSceneContent` as written and the corrected `SetSceneContent` give the same worker. |
| `Findings.SetSceneContentAsWrittenBreaksCache` | paparazzi/src/paparazzi.cpp:148-151 | When the hash tells the content from its NUL-truncated prefix, the cache file no longer hashes to its name. |
| `Findings.NulBodyBreaksCache` | paparazzi/src/paparazzi.cpp:148-151 | A new worker sent the body "a", NUL, "b" ends with an inconsistent cache. |

## Left out

- Floating point: sizes, coordinates and angles are reals. The model does not capture `float`/`double` rounding, including `float(getTime() - startTime)`. It also does not capture the `float` width of the `setZoom`, `setTilt` and `setRotation` parameters, or NaN (`fmax` with NaN).
- `glm::radians` is taken as `deg * pi / 180` with a fixed decimal value of pi.
- The row latitude `atan(sinh(...))` is a parameter (`Collab.tileLat`). The unused `coord_to_lnglat` and `lnglat_to_coord` helpers are not modelled.
- The map engine, the GL context, the platform and its URL-client thread pool are external. They appear only as the calls made on them. The engine's answer to `update(10.)` and the clock are the parameter `Env`.
- `Progress`: the model assumes that at least 1 ms of wall-clock time passes across each engine update call. Without it, the loop's termination rests on a clock the code does not control.
- MD5 is a parameter (`Collab.md5`). File writes are a map from path to content, and the model assumes every write succeeds. In the code a failed `std::ofstream` write (for example with no `cache/` directory) is silent, and the path is loaded anyway.
- Strings stand for byte strings, one character per byte. `|req.body|` is therefore the byte count `request.body.size()` reports.
- Header order: the model lists each response's headers in the order the handler writes them, with the CORS header first. Whether `headers_t` keeps that order is not part of this model (a container ordered by key would also put it first).
- `http_request_t::from_string` and its errors, `response.from_info` and the serialisation of the response are transport, as is `worker.cpp`.
- The `if (m_map)` test before rendering is taken as true: the constructor always creates the map.
- Numbers.ParseReal: models plain decimal notation only. Text with an exponent or a hexadecimal prefix is read as its leading decimal prefix: "1e5" reads as 1 and "0x10" as 0, where `std::stod` gives 100000 and 16. Text such as `inf`, `infinity` or `nan` fails in the model, where `std::stod`/`std::stof` accept it as infinity or NaN; so a request with `tilt=inf` gets a 400 "stof" in the model, while the code calls `setTilt` with infinity and answers 200. The `out_of_range` error for values beyond `float` or `double` range is not modelled.
- Numbers.ParseInt: the contract gives the 32-bit range and the failure cases. The value itself is pinned down by `ParseIntRoundTrip` for canonical decimal text, not for every input.
- Dispatch.PlaceTile: the contract states the resulting view, not the order of the calls. The zoom-before-position order is in the body only. Its clause "nothing changes when already in place" holds for the corrected `setSize` test; as written it holds only when both scaled sizes are whole numbers (`Findings.SetSizeAsWrittenRepeatIff`).
- Dispatch.ExplicitStep: the contract states the resulting views, not the order of the calls. The position-before-zoom order is in the body only.
- SettersIdempotent: its `SetSize` clause is about the corrected test. As written, a repeated `setSize` is a no-op only when both scaled sizes are whole numbers (`Findings.SetSizeAsWrittenRepeatIff`).
- Dispatch.Handle: built on the corrected `setSize` and `setSceneContent`. Its clause for a request already in place holds for the code as written only when density × width and density × height are whole numbers. Its cache-consistency clause holds for the code as written only when the body has no NUL.
- Dispatch.Work: built on `Handle`, so the same two limits apply to its clauses on the view and on cache consistency.
- Dispatch.RepeatedRequestOnlyRenders: holds for the corrected `setSize` test. As written, a repeated request with fractional density × width or density × height resizes and pumps again (`Findings.SetSizeAsWrittenRepeats`).
- `Paparazzi::cleanup`, the destructor and `Tangram::setDebugFlag` do nothing the model can observe.
- The constructor's set-up calls `m_glContext->init()`, `m_glContext->makeCurrent()` and `m_map->setupGL()` are not in the trace: they prepare the context but set no view parameter. The model takes `init()` and `makeCurrent()` to succeed; when either fails, the constructor throws a `runtime_error` (paparazzi/src/paparazzi.cpp:49-55).

## Findings

| source | as written | input that shows it | evidently intended | confidence | as-written member | corrected member |
|---|---|---|---|---|---|---|
| paparazzi/src/paparazzi.cpp:85-89 | The no-change test compares `_density*_width` (a floating-point product) with `m_width`, which was stored truncated to an `int`. | `setSize(101, 101, 1.5)` twice on a new worker: the stored width is 151, the test compares 151.5, so the second call resizes and pumps again. | Compare the truncated physical sizes, so a repeated request is a no-op. | not executed; medium, since the declared types of `m_width`/`m_height` are not part of this model | `Findings.SetSizeAsWritten` | `Paparazzi.SetSize` |
| paparazzi/src/paparazzi.cpp:150 | `out << _yaml_content.c_str()` writes the body only up to its first NUL, while the file is named by the MD5 of the whole body. | An inline scene body "a", NUL, "b": the file `cache/<md5 of "a\0b">.yaml` holds only "a". | Write the whole body, so the cache file holds content hashing to its name. | not executed; high | `Findings.SetSceneContentAsWritten` | `Paparazzi.SetSceneContent` |

=== FILE: dispatch.dfy ===
/**
 * `Paparazzi::work`: one render request, from the parsed HTTP request to the
 * HTTP response. The handler walks the request in a fixed order (scene,
 * density, view, tilt, rotation), calling a setter as soon as each value is
 * known, so a request that fails half-way keeps the changes made before the
 * failure. The reference it is checked against is `PlanOf`, which reads the
 * whole request without touching any state.
 */
module Dispatch {
  import opened Wrappers
  import opened Numbers
  import opened Engine
  import opened UpdateLoop
  import opened Paparazzi
  import opened Request

  // ----- responses -----------------------------------------------------------

  datatype Header = Header(name: string, value: string)

  const Cors: Header := Header("Access-Control-Allow-Origin", "*")
  const PngMime: Header := Header("Content-type", "image/png")
  const TxtMime: Header := Header("Content-type", "text/plain;charset=utf-8")

  datatype Response = Response(code: int, reason: string, body: string, headers: seq<Header>)

  /** The answer to the load balancer's `/check` probe. */
  const HealthResponse: Response := Response(200, "OK", "OK", [Cors, TxtMime])

  /**
   * A rendered request. The image is empty: the pixel read-back after
   * rendering is disabled in the handler, so the body is never filled.
   */
  const ImageResponse: Response := Response(200, "OK", "", [Cors, PngMime])

  /**
   * Why a request is turned down. A number that does not parse is reported
   * by the `what()` string libstdc++ gives the exception: "stoi", "stod" or
   * "stof", the name of the conversion that threw.
   */
  datatype Fault =
    | MissingScene          // no `scene` in the query and no body
    | NoViewFault           // neither the five view fields nor a tile path
    | BadNumber(parser: string) // `std::stoi` / `std::stof` / `std::stod` rejected a field

  /** The exception's `what()`, which becomes the response body. */
  function What(f: Fault): string {
    match f
    case MissingScene => "scene is required punk"
    case NoViewFault => "not enought data to construct image"
    case BadNumber(parser) => parser
  }

  function FaultResponse(f: Fault): Response {
    Response(400, "Bad Request", What(f), [Cors])
  }

  // ----- the request read without side effects ----------------------------------

  /** A value read from the request, or the fault that stops the handler. */
  datatype Checked<T> = Ok(value: T) | Fail(fault: Fault)

  /**
   * What the handler relies on but cannot compute itself: the engine and the
   * clock, the MD5 of an inline scene, and the latitude of the centre of tile
   * row `y` at zoom `z` (the inverse Mercator projection).
   */
  datatype Collab = Collab(env: Env, md5: string -> string, tileLat: (nat, nat) -> real)

  /** The scene id: the `scene` query value, or the hash of an inline scene body. */
  function SceneOf(c: Collab, req: HttpRequest): (r: Checked<string>)
    ensures r.Fail? <==> !Present(req.query, "scene") && |req.body| == 0
    ensures r.Fail? ==> r.fault == MissingScene
  {
    if Present(req.query, "scene") then Ok(First(req.query, "scene"))
    else if |req.body| == 0 then Fail(MissingScene)
    else Ok(c.md5(req.body))
  }

  /** Size, position and zoom, before the density is applied. */
  datatype Placement = Placement(width: int, height: int, lon: real, lat: real, zoom: real)

  /** The tile size in logical pixels. */
  const TileSize: int := 256

  /**
   * The placement a request asks for: the five explicit fields, each parsed
   * the way the handler parses it, or the centre of the tile named in the path.
   */
  function PlacementOf(c: Collab, req: HttpRequest): (r: Checked<Placement>)
    ensures r.Fail? && ExplicitFields(req.query) ==> r.fault.BadNumber?
    ensures !ExplicitFields(req.query) ==> (r.Fail? <==> TileSearch(req.path).None?)
    ensures r.Fail? && !ExplicitFields(req.query) ==> r.fault == NoViewFault
  {
    match ViewBranch(req.query, req.path)
    case Explicit(width, height, lon, lat, zoom) =>
      if ParseInt(width).None? || ParseInt(height).None? then Fail(BadNumber("stoi"))
      else if ParseReal(lon).None? || ParseReal(lat).None? then Fail(BadNumber("stod"))
      else if ParseReal(zoom).None? then Fail(BadNumber("stof"))
      else Ok(Placement(ParseInt(width).value, ParseInt(height).value,
                        ParseReal(lon).value, ParseReal(lat).value, ParseReal(zoom).value))
    case TileView(g) =>
      var z, x, y := StreamInt(g.z), StreamInt(g.x), StreamInt(g.y);
      Ok(Placement(TileSize, TileSize, TileLon(z, x), c.tileLat(z, y), z as real))
    case NoView =>
      Fail(NoViewFault)
  }

  /** All five explicit fields parse: width and height with `stoi`, lon and lat with `stod`, zoom with `stof`. */
  predicate ExplicitParses(q: Query)
    requires ExplicitFields(q)
  {
    && ParseInt(First(q, "width")).Some? && ParseInt(First(q, "height")).Some?
    && ParseReal(First(q, "lon")).Some? && ParseReal(First(q, "lat")).Some?
    && ParseReal(First(q, "zoom")).Some?
  }

  /**
   * A request with all five fields is placed exactly when each parses, and
   * then at the parsed values; otherwise the first parser to reject a field,
   * in the order width/height, lon/lat, zoom, names the fault.
   */
  lemma ExplicitPlacement(c: Collab, req: HttpRequest)
    requires ExplicitFields(req.query)
    ensures PlacementOf(c, req).Ok? <==> ExplicitParses(req.query)
    ensures var q := req.query;
      PlacementOf(c, req).Ok? ==>
        PlacementOf(c, req).value == Placement(ParseInt(First(q, "width")).value, ParseInt(First(q, "height")).value,
                                               ParseReal(First(q, "lon")).value, ParseReal(First(q, "lat")).value,
                                               ParseReal(First(q, "zoom")).value)
    ensures var q := req.query;
      ParseInt(First(q, "width")).None? || ParseInt(First(q, "height")).None? ==>
        PlacementOf(c, req) == Fail(BadNumber("stoi"))
    ensures var q := req.query;
      ParseInt(First(q, "width")).Some? && ParseInt(First(q, "height")).Some?
      && (ParseReal(First(q, "lon")).None? || ParseReal(First(q, "lat")).None?) ==>
        PlacementOf(c, req) == Fail(BadNumber("stod"))
    ensures var q := req.query;
      ParseInt(First(q, "width")).Some? && ParseInt(First(q, "height")).Some?
      && ParseReal(First(q, "lon")).Some? && ParseReal(First(q, "lat")).Some? && ParseReal(First(q, "zoom")).None? ==>
        PlacementOf(c, req) == Fail(BadNumber("stof"))
  {
    var q := req.query;
    assert ViewBranch(q, req.path)
        == Explicit(First(q, "width"), First(q, "height"), First(q, "lon"), First(q, "lat"), First(q, "zoom"));
  }

  /**
   * A tile request is placed by its three groups: a 256x256 image at the
   * tile's zoom, the column's centre longitude and the row's latitude; an
   * empty zoom group reads as zoom 0.
   */
  lemma TilePlacement(c: Collab, req: HttpRequest, g: TileGroups)
    requires !ExplicitFields(req.query) && TileSearch(req.path) == Some(g)
    ensures var z, x, y := StreamInt(g.z), StreamInt(g.x), StreamInt(g.y);
      PlacementOf(c, req) == Ok(Placement(TileSize, TileSize, TileLon(z, x), c.tileLat(z, y), z as real))
    ensures |g.z| == 0 ==> PlacementOf(c, req).value.zoom == 0.0
  {
    assert ViewBranch(req.query, req.path) == TileView(g);
  }

  /** The path `/2/1/1.png` names zoom 2, column 1, row 1. */
  lemma TileTwoOneOneGroups()
    ensures TileSearch("/2/1/1.png") == Some(TileGroups("2", "1", "1"))
  {
    var path := "/2/1/1.png";
    var g := TileGroups("2", "1", "1");
    assert MatchesAt(path, 0, g);
    MatchAtComplete(path, 0, g);
    assert SearchFrom(path, 0) == Some(0);
  }

  /** The tile `/2/1/1.png` is centred on longitude -45 at zoom 2. */
  lemma TileTwoOneOne(c: Collab, q: Query)
    requires !ExplicitFields(q)
    ensures PlacementOf(c, HttpRequest("/2/1/1.png", q, "")) == Ok(Placement(256, 256, -45.0, c.tileLat(2, 1), 2.0))
  {
    TileTwoOneOneGroups();
    TilePlacement(c, HttpRequest("/2/1/1.png", q, ""), TileGroups("2", "1", "1"));
    TileTwoOneOneNumbers();
  }

  /** Zoom 2 has four columns, and the centre of column 1 is at -45 degrees. */
  lemma TileTwoOneOneNumbers()
    ensures StreamInt("2") == 2 && StreamInt("1") == 1 && TileLon(2, 1) == -45.0
  {
    assert Pow2(2) == 4;
  }

  /** Tilt and rotation in degrees, 0 when not given. */
  function OrientationOf(q: Query): (r: Checked<(real, real)>)
    ensures r.Fail? <==> Degrees(q, "tilt").None? || Degrees(q, "rotation").None?
    ensures r.Fail? ==> r.fault == BadNumber("stof")
    ensures r.Ok? && !Present(q, "tilt") ==> r.value.0 == 0.0
    ensures r.Ok? && !Present(q, "rotation") ==> r.value.1 == 0.0
  {
    match Degrees(q, "tilt")
    case None => Fail(BadNumber("stof"))
    case Some(tilt) =>
      match Degrees(q, "rotation")
      case None => Fail(BadNumber("stof"))
      case Some(rotation) => Ok((tilt, rotation))
  }

  /** Everything a request asks for once it has been read in full. */
  datatype Plan = Plan(scene: string, density: real, place: Placement, tilt: real, rotation: real)

  /**
   * The whole request read in the handler's order; the first field that is
   * missing or does not parse decides the fault.
   */
  function PlanOf(c: Collab, req: HttpRequest): (r: Checked<Plan>)
    ensures r.Ok? <==> && SceneOf(c, req).Ok? && Density(req.query).Some?
                       && PlacementOf(c, req).Ok? && OrientationOf(req.query).Ok?
    ensures r.Ok? ==> r.value.density >= 1.0
  {
    match SceneOf(c, req)
    case Fail(f) => Fail(f)
    case Ok(scene) =>
      match Density(req.query)
      case None => Fail(BadNumber("stof"))
      case Some(density) =>
        match PlacementOf(c, req)
        case Fail(f) => Fail(f)
        case Ok(place) =>
          match OrientationOf(req.query)
          case Fail(f) => Fail(f)
          case Ok(o) => Ok(Plan(scene, density, place, o.0, o.1))
  }

  function FaultOf<T>(r: Checked<T>): Option<Fault> {
    if r.Fail? then Some(r.fault) else None
  }

  /** The view record a plan leaves behind: every field of it is set by the request. */
  function ViewOf(p: Plan): View {
    View(p.scene,
         Physical(p.place.width, p.density), Physical(p.place.height, p.density), p.density * AaScale,
         p.place.lon, p.place.lat, p.place.zoom, p.tilt, p.rotation)
  }

  // ----- the handler's steps ---------------------------------------------------------

  /** A step's result: the world it leaves, and the fault that stopped it, if any. */
  datatype Outcome = Outcome(world: World, fault: Option<Fault>)

  /**
   * `w'` continues `w`: calls are only appended, and the engine mirror and the
   * cache stay consistent.
   */
  ghost predicate Keeps(c: Collab, w: World, w': World) {
    && w.trace <= w'.trace
    && (Mirrors(w) ==> Mirrors(w'))
    && (CacheConsistent(c.md5, w.files) ==> CacheConsistent(c.md5, w'.files))
  }

  /** Steps that keep the invariants compose. */
  lemma KeepsChain(c: Collab, a: World, b: World, d: World)
    requires Keeps(c, a, b) && Quiet(b.trace, |a.trace|)
    requires Keeps(c, b, d) && Quiet(d.trace, |b.trace|)
    ensures Keeps(c, a, d) && Quiet(d.trace, |a.trace|)
  {
    forall i | |a.trace| <= i < |d.trace|
      ensures !d.trace[i].Render?
    {
      if i < |b.trace| {
        assert d.trace[i] == b.trace[i];
      }
    }
  }

  /** The scene step: a `scene` value is loaded by name, a body as an inline scene. */
  function SceneStep(c: Collab, w: World, req: HttpRequest): (o: Outcome)
    requires Progress(c.env)
    ensures Keeps(c, w, o.world) && Quiet(o.world.trace, |w.trace|)
    ensures o.fault == FaultOf(SceneOf(c, req))
    ensures o.fault.Some? ==> o.world == w
    ensures SceneOf(c, req).Ok? ==> o.world.view == w.view.(scene := SceneOf(c, req).value)
    ensures SceneOf(c, req).Ok? && w.view.scene == SceneOf(c, req).value ==> o.world == w
    ensures Present(req.query, "scene") ==> o.world.files == w.files
  {
    if Present(req.query, "scene") then
      Outcome(SetScene(c.env, w, First(req.query, "scene")), None)
    else if |req.body| == 0 then
      Outcome(w, Some(MissingScene))
    else
      Outcome(SetSceneContent(c.env, c.md5, w, req.body), None)
  }

  /** The view fields a placement sets, with the density applied. */
  function Placed(v: View, p: Placement, density: real): View {
    v.(width := Physical(p.width, density), height := Physical(p.height, density),
       pixelScale := density * AaScale, lon := p.lon, lat := p.lat, zoom := p.zoom)
  }

  /**
   * Setting a tile's placement in the order of the tile branch: size, then
   * zoom, then position. Each setter finds its value in place when it is
   * already there.
   */
  function PlaceTile(c: Collab, w: World, p: Placement, density: real): (r: World)
    requires Progress(c.env)
    ensures Keeps(c, w, r) && Quiet(r.trace, |w.trace|) && r.files == w.files
    ensures r.view == Placed(w.view, p, density)
    ensures w.view == Placed(w.view, p, density) ==> r == w
  {
    var sized := SetSize(c.env, w, p.width, p.height, density);
    var zoomed := Paparazzi.SetZoom(c.env, sized, p.zoom);
    var moved := Paparazzi.SetPosition(c.env, zoomed, p.lon, p.lat);
    KeepsChain(c, w, sized, zoomed);
    KeepsChain(c, w, zoomed, moved);
    moved
  }

  /**
   * The view step of the explicit branch. Both sizes are parsed before
   * `setSize`, both coordinates before `setPosition`, and the zoom only after
   * the position is set, so a bad coordinate leaves the new size in place and
   * a bad zoom leaves size and position changed.
   */
  function ExplicitStep(c: Collab, w: World, req: HttpRequest, density: real): (o: Outcome)
    requires Progress(c.env)
    requires ExplicitFields(req.query)
    ensures Keeps(c, w, o.world) && Quiet(o.world.trace, |w.trace|) && o.world.files == w.files
    ensures o.fault == FaultOf(PlacementOf(c, req))
    ensures o.fault.None? ==> o.world.view == Placed(w.view, PlacementOf(c, req).value, density)
    ensures o.fault.None? && w.view == Placed(w.view, PlacementOf(c, req).value, density) ==> o.world == w
    ensures o.fault == Some(BadNumber("stoi")) ==> o.world == w
    ensures o.fault == Some(BadNumber("stod")) ==>
      o.world.view == w.view.(width := Physical(ParseInt(First(req.query, "width")).value, density),
                              height := Physical(ParseInt(First(req.query, "height")).value, density),
                              pixelScale := density * AaScale)
    ensures o.fault == Some(BadNumber("stof")) ==>
      o.world.view == w.view.(width := Physical(ParseInt(First(req.query, "width")).value, density),
                              height := Physical(ParseInt(First(req.query, "height")).value, density),
                              pixelScale := density * AaScale,
                              lon := ParseReal(First(req.query, "lon")).value,
                              lat := ParseReal(First(req.query, "lat")).value)
  {
    var q := req.query;
    var width, height := ParseInt(First(q, "width")), ParseInt(First(q, "height"));
    var lon, lat, zoom := ParseReal(First(q, "lon")), ParseReal(First(q, "lat")), ParseReal(First(q, "zoom"));
    if width.None? || height.None? then
      Outcome(w, Some(BadNumber("stoi")))
    else
      var sized := SetSize(c.env, w, width.value, height.value, density);
      if lon.None? || lat.None? then
        Outcome(sized, Some(BadNumber("stod")))
      else
        var moved := Paparazzi.SetPosition(c.env, sized, lon.value, lat.value);
        KeepsChain(c, w, sized, moved);
        if zoom.None? then
          Outcome(moved, Some(BadNumber("stof")))
        else
          var zoomed := Paparazzi.SetZoom(c.env, moved, zoom.value);
          KeepsChain(c, w, moved, zoomed);
          Outcome(zoomed, None)
  }

  /** The view step: the explicit fields, else the tile in the path, else a fault. */
  function ViewStep(c: Collab, w: World, req: HttpRequest, density: real): (o: Outcome)
    requires Progress(c.env)
    ensures Keeps(c, w, o.world) && Quiet(o.world.trace, |w.trace|) && o.world.files == w.files
    ensures o.fault == FaultOf(PlacementOf(c, req))
    ensures o.fault.None? ==> o.world.view == Placed(w.view, PlacementOf(c, req).value, density)
    ensures o.fault.None? && w.view == Placed(w.view, PlacementOf(c, req).value, density) ==> o.world == w
    ensures o.fault == Some(NoViewFault) ==> o.world == w
    ensures o.world.view.scene == w.view.scene
  {
    if ExplicitFields(req.query) then
      ExplicitStep(c, w, req, density)
    else if TileSearch(req.path).Some? then
      Outcome(PlaceTile(c, w, PlacementOf(c, req).value, density), None)
    else
      Outcome(w, Some(NoViewFault))
  }

  /** The optional tilt and rotation, 0 degrees when not given. */
  function OrientStep(c: Collab, w: World, q: Query): (o: Outcome)
    requires Progress(c.env)
    ensures Keeps(c, w, o.world) && Quiet(o.world.trace, |w.trace|) && o.world.files == w.files
    ensures o.fault == FaultOf(OrientationOf(q))
    ensures Degrees(q, "tilt").None? ==> o.world == w
    ensures Degrees(q, "tilt").Some? && Degrees(q, "rotation").None? ==>
      o.world.view == w.view.(tilt := Degrees(q, "tilt").value)
    ensures o.fault.None? ==>
      o.world.view == w.view.(tilt := OrientationOf(q).value.0, rotation := OrientationOf(q).value.1)
    ensures o.fault.None? && w.view.tilt == OrientationOf(q).value.0 && w.view.rotation == OrientationOf(q).value.1
            ==> o.world == w
  {
    match Degrees(q, "tilt")
    case None => Outcome(w, Some(BadNumber("stof")))
    case Some(tilt) =>
      var tilted := Paparazzi.SetTilt(c.env, w, tilt);
      match Degrees(q, "rotation")
      case None => Outcome(tilted, Some(BadNumber("stof")))
      case Some(rotation) =>
        var turned := Paparazzi.SetRotation(c.env, tilted, rotation);
        KeepsChain(c, w, tilted, turned);
        Outcome(turned, None)
  }

  /** `t'` is `t`, then calls without a render, then exactly one render as the last call. */
  predicate RenderedOnce(t: Trace, t': Trace) {
    && |t| < |t'| && t <= t'
    && t'[|t'| - 1] == Render
    && Quiet(t'[..|t'| - 1], |t|)
  }

  /** `update()` and then `m_map->render()`. */
  function RenderFrame(c: Collab, w: World): (r: World)
    requires Progress(c.env)
    ensures r.view == w.view && r.files == w.files
    ensures Keeps(c, w, r) && RenderedOnce(w.trace, r.trace)
    ensures PumpOf(c.env, w.trace, r.trace[|w.trace|..|r.trace| - 1])
    ensures Replay(r.trace) == Replay(w.trace)
  {
    var pumped := Pump(c.env, w.trace);
    ApplySnoc(Blank, pumped, Render);
    assert (pumped + [Render])[..|pumped|] == pumped;
    w.(trace := pumped + [Render])
  }

  /** A render after calls without one is still the only render. */
  lemma RenderedAfterQuiet(c: Collab, a: World, b: World, d: World)
    requires Keeps(c, a, b) && Quiet(b.trace, |a.trace|)
    requires Keeps(c, b, d) && RenderedOnce(b.trace, d.trace)
    ensures Keeps(c, a, d) && RenderedOnce(a.trace, d.trace)
  {
    var n := |d.trace| - 1;
    assert d.trace[..n][..|b.trace|] == b.trace;
    forall i | |a.trace| <= i < n
      ensures !d.trace[..n][i].Render?
    {
      if i < |b.trace| {
        assert d.trace[..n][i] == b.trace[i];
      }
    }
  }

  /** The view, the orientation and the render, once scene and density are known. */
  function Finish(c: Collab, w: World, req: HttpRequest, density: real): (o: Outcome)
    requires Progress(c.env)
    ensures Keeps(c, w, o.world)
    ensures o.world.view.scene == w.view.scene
    ensures o.fault == (if PlacementOf(c, req).Fail? then Some(PlacementOf(c, req).fault)
                        else FaultOf(OrientationOf(req.query)))
    ensures o.fault.Some? ==> Quiet(o.world.trace, |w.trace|)
    ensures o.fault.None? ==> RenderedOnce(w.trace, o.world.trace)
    ensures o.fault.None? ==>
      o.world.view == Placed(w.view, PlacementOf(c, req).value, density)
                        .(tilt := OrientationOf(req.query).value.0, rotation := OrientationOf(req.query).value.1)
    ensures o.fault.None? && w.view == Placed(w.view, PlacementOf(c, req).value, density)
                                        .(tilt := OrientationOf(req.query).value.0, rotation := OrientationOf(req.query).value.1)
            ==> o.world == w.(trace := Pump(c.env, w.trace) + [Render])
  {
    var v := ViewStep(c, w, req, density);
    if v.fault.Some? then v
    else
      var o := OrientStep(c, v.world, req.query);
      KeepsChain(c, w, v.world, o.world);
      if o.fault.Some? then o
      else
        var r := RenderFrame(c, o.world);
        RenderedAfterQuiet(c, w, o.world, r);
        Outcome(r, None)
  }

  /**
   * The request from the scene to the render, without the response: the
   * world it leaves and the fault that stopped it.
   */
  function Handle(c: Collab, w: World, req: HttpRequest): (o: Outcome)
    requires Progress(c.env)
    ensures Keeps(c, w, o.world)
    ensures o.fault == FaultOf(PlanOf(c, req))
    ensures o.fault.Some? ==> Quiet(o.world.trace, |w.trace|)
    ensures o.fault.None? ==> RenderedOnce(w.trace, o.world.trace)
    ensures o.fault == Some(MissingScene) ==> o.world == w
    ensures o.fault.Some? && o.fault != Some(MissingScene) ==>
      SceneOf(c, req).Ok? && o.world.view.scene == SceneOf(c, req).value
    ensures SceneOf(c, req).Ok? && Density(req.query).None? ==> o.world == SceneStep(c, w, req).world
    ensures PlanOf(c, req).Ok? ==> o.world.view == ViewOf(PlanOf(c, req).value)
    ensures PlanOf(c, req).Ok? && w.view == ViewOf(PlanOf(c, req).value) ==>
      o.world == w.(trace := Pump(c.env, w.trace) + [Render])
  {
    var s := SceneStep(c, w, req);
    if s.fault.Some? then s
    else match Density(req.query)
    case None => Outcome(s.world, Some(BadNumber("stof")))
    case Some(density) =>
      var f := Finish(c, s.world, req, density);
      if f.fault.Some? then
        KeepsChain(c, w, s.world, f.world);
        f
      else
        RenderedAfterQuiet(c, w, s.world, f.world);
        f
  }

  /**
   * The heart beat reported with the result: the scene's name, or the size
   * of an inline scene in decimal; empty for the health probe and when no
   * scene is given.
   */
  function HeartBeat(req: HttpRequest): string {
    if req.path == "/check" then ""
    else if Present(req.query, "scene") then First(req.query, "scene")
    else if |req.body| > 0 then NatToString(|req.body|)
    else ""
  }

  /** What the handler leaves: the worker, the response and the heart beat. */
  datatype Reply = Reply(world: World, response: Response, heartBeat: string)

  /** `Paparazzi::work`: the health probe, or one render request and its response. */
  function Work(c: Collab, w: World, req: HttpRequest): (r: Reply)
    requires Progress(c.env)
    ensures req.path == "/check" ==> r.world == w && r.response == HealthResponse && r.heartBeat == ""
    ensures req.path != "/check" ==>
      r.response == (match PlanOf(c, req) case Ok(_) => ImageResponse case Fail(f) => FaultResponse(f))
    ensures r.response.code == 200 <==> req.path == "/check" || PlanOf(c, req).Ok?
    ensures r.response.headers[0] == Cors
    ensures req.path != "/check" && Present(req.query, "scene") ==> r.heartBeat == First(req.query, "scene")
    ensures req.path != "/check" && !Present(req.query, "scene") && |req.body| > 0 ==>
      r.heartBeat == NatToString(|req.body|)
    ensures Keeps(c, w, r.world)
    ensures r.response.code == 400 ==> Quiet(r.world.trace, |w.trace|)
    ensures req.path != "/check" && !Present(req.query, "scene") && |req.body| == 0 ==>
      r.world == w && r.response == FaultResponse(MissingScene) && r.heartBeat == ""
    ensures req.path != "/check" && PlanOf(c, req).Ok? ==>
      RenderedOnce(w.trace, r.world.trace) && r.world.view == ViewOf(PlanOf(c, req).value)
  {
    if req.path == "/check" then Reply(w, HealthResponse, "")
    else
      var o := Handle(c, w, req);
      var response := match o.fault case None => ImageResponse case Some(f) => FaultResponse(f);
      Reply(o.world, response, HeartBeat(req))
  }

  /**
   * Asking for the same image twice: the second request finds every value in
   * place, so it makes no call but one pump and the render, and answers alike.
   */
  lemma RepeatedRequestOnlyRenders(c: Collab, w: World, req: HttpRequest)
    requires Progress(c.env)
    requires req.path != "/check" && PlanOf(c, req).Ok?
    ensures var w1 := Work(c, w, req).world;
      Work(c, w1, req) == Reply(w1.(trace := Pump(c.env, w1.trace) + [Render]), ImageResponse, HeartBeat(req))
  {
    var w1 := Work(c, w, req).world;
    assert w1.view == ViewOf(PlanOf(c, req).value);
  }
}

=== FILE: engine.dfy ===
/**
 * The map engine and the GL context as the request handler sees them: an
 * append-only trace of the calls made on them, and the view parameters that
 * trace leaves the engine holding.
 */
module Engine {
  import opened Wrappers

  /** One call on `Tangram::Map` or on the headless GL context. */
  datatype Call =
    | LoadScene(path: string)              // m_map->loadSceneAsync
    | SetPixelScale(scale: real)           // m_map->setPixelScale
    | Resize(width: real, height: real)    // m_map->resize, in anti-aliased pixels
    | SetPosition(lon: real, lat: real)    // m_map->setPosition
    | SetZoom(zoom: real)                  // m_map->setZoom
    | SetTilt(radians: real)               // m_map->setTilt
    | SetRotation(radians: real)           // m_map->setRotation
    | Update                               // m_map->update(10.), one slice of tile work
    | Render                               // m_map->render
    | GlResize(glWidth: int, glHeight: int) // m_glContext->resize

  type Trace = seq<Call>

  /** `n` successive engine update calls. */
  function Updates(n: nat): (s: Trace)
    ensures |s| == n
    ensures forall i :: 0 <= i < n ==> s[i] == Update
  {
    if n == 0 then [] else Updates(n - 1) + [Update]
  }

  /** Calls that advance or draw the map without changing what it shows. */
  predicate Idle(c: Call) {
    c.Update? || c.Render?
  }

  /** The view parameters held by the engine; None until first pushed. */
  datatype EngineState = EngineState(
    scene: Option<string>,
    pixelScale: Option<real>,
    size: Option<(real, real)>,
    position: Option<(real, real)>,
    zoom: Option<real>,
    tilt: Option<real>,
    rotation: Option<real>,
    glSize: Option<(int, int)>)

  const Blank: EngineState := EngineState(None, None, None, None, None, None, None, None)

  /** What one call does to the engine's view parameters. */
  function Apply(e: EngineState, c: Call): EngineState {
    match c
    case LoadScene(p) => e.(scene := Some(p))
    case SetPixelScale(s) => e.(pixelScale := Some(s))
    case Resize(w, h) => e.(size := Some((w, h)))
    case SetPosition(lon, lat) => e.(position := Some((lon, lat)))
    case SetZoom(z) => e.(zoom := Some(z))
    case SetTilt(r) => e.(tilt := Some(r))
    case SetRotation(r) => e.(rotation := Some(r))
    case Update => e
    case Render => e
    case GlResize(w, h) => e.(glSize := Some((w, h)))
  }

  /** The state reached from `e` by the calls of `s`, in order. */
  function ApplyAll(e: EngineState, s: Trace): EngineState
    decreases |s|
  {
    if |s| == 0 then e else Apply(ApplyAll(e, s[..|s| - 1]), s[|s| - 1])
  }

  /** The engine's view parameters after a whole trace. */
  function Replay(t: Trace): EngineState {
    ApplyAll(Blank, t)
  }

  /** One more call applies on top of the state so far. */
  lemma ApplySnoc(e: EngineState, s: Trace, c: Call)
    ensures ApplyAll(e, s + [c]) == Apply(ApplyAll(e, s), c)
  {
    assert (s + [c])[..|s|] == s;
  }

  /** Replaying a trace in two pieces is replaying it whole. */
  lemma {:induction false} ApplyAllAppend(e: EngineState, a: Trace, b: Trace)
    ensures ApplyAll(e, a + b) == ApplyAll(ApplyAll(e, a), b)
    decreases |b|
  {
    if |b| == 0 {
      assert a + b == a;
    } else {
      assert (a + b)[..|a + b| - 1] == a + b[..|b| - 1];
      ApplyAllAppend(e, a, b[..|b| - 1]);
    }
  }

  /** Update and render calls leave the view parameters as they were. */
  lemma {:induction false} IdleCallsKeepState(e: EngineState, s: Trace)
    requires forall i :: 0 <= i < |s| ==> Idle(s[i])
    ensures ApplyAll(e, s) == e
    decreases |s|
  {
    if |s| > 0 {
      IdleCallsKeepState(e, s[..|s| - 1]);
    }
  }

  /** No render call at or after position `from`. */
  predicate Quiet(t: Trace, from: nat) {
    forall i :: from <= i < |t| ==> !t[i].Render?
  }

}

=== FILE: findings.dfy ===
/**
 * Two places where the handler's code does something other than what it
 * evidently means. Each is modelled as written, with an input that shows the
 * difference; the rest of the model uses the corrected definitions in
 * `Paparazzi`.
 */
module Findings {
  import opened Engine
  import opened UpdateLoop
  import opened Paparazzi

  // ----- setSize compares products with truncated sizes ------------------------

  /**
   * The no-change test as written: the scaled floating-point sizes are
   * compared with the stored sizes, which were truncated to whole pixels
   * when they were stored.
   */
  predicate SizeInPlaceAsWritten(v: View, width: int, height: int, density: real) {
    && density * width as real == v.width as real
    && density * height as real == v.height as real
    && density * AaScale == v.pixelScale
  }

  /** `Paparazzi::setSize` with its no-change test as written. */
  function SetSizeAsWritten(env: Env, w: World, width: int, height: int, density: real): (r: World)
    requires Progress(env)
    ensures r.view == w.view.(width := Physical(width, density), height := Physical(height, density),
                              pixelScale := density * AaScale)
    ensures SizeInPlaceAsWritten(w.view, width, height, density) ==> r == w
    ensures !SizeInPlaceAsWritten(w.view, width, height, density) ==>
      |w.trace| < |r.trace| && r.trace[|r.trace| - 1] == Call.GlResize(Physical(width, density), Physical(height, density))
  {
    if SizeInPlaceAsWritten(w.view, width, height, density) then w
    else ApplySize(env, w, width, height, density)
  }

  /**
   * On a fresh worker, asking twice for a 101x101 image at density 1.5
   * resizes twice: the stored width is 151 while the test compares 151.5.
   */
  lemma SetSizeAsWrittenRepeats(env: Env)
    requires Progress(env)
    ensures var w1 := SetSizeAsWritten(env, Init(env), 101, 101, 1.5);
            |SetSizeAsWritten(env, w1, 101, 101, 1.5).trace| > |w1.trace|
  {
    var w1 := SetSizeAsWritten(env, Init(env), 101, 101, 1.5);
    assert Physical(101, 1.5) == 151;
    assert !SizeInPlaceAsWritten(w1.view, 101, 101, 1.5);
  }

  /** A value with no fractional part, so storing it in an `int` loses nothing. */
  predicate Whole(x: real) {
    Trunc(x) as real == x
  }

  /**
   * When both scaled sizes are whole numbers the test as written and the
   * corrected test agree, and so do the two setters.
   */
  lemma SetSizeAsWrittenAgrees(env: Env, w: World, width: int, height: int, density: real)
    requires Progress(env)
    requires Whole(density * width as real) && Whole(density * height as real)
    ensures SetSizeAsWritten(env, w, width, height, density) == SetSize(env, w, width, height, density)
  {
    assert SizeInPlaceAsWritten(w.view, width, height, density) <==> SizeInPlace(w.view, width, height, density);
  }

  /**
   * As written, asking for the same size a second time is a no-op exactly
   * when both scaled sizes are whole numbers; otherwise it resizes again.
   */
  lemma SetSizeAsWrittenRepeatIff(env: Env, w: World, width: int, height: int, density: real)
    requires Progress(env)
    ensures var w1 := SetSizeAsWritten(env, w, width, height, density);
            var again := SetSizeAsWritten(env, w1, width, height, density);
            again == w1 <==> Whole(density * width as real) && Whole(density * height as real)
  {
    var w1 := SetSizeAsWritten(env, w, width, height, density);
    if !(Whole(density * width as real) && Whole(density * height as real)) {
      assert !SizeInPlaceAsWritten(w1.view, width, height, density);
      assert |SetSizeAsWritten(env, w1, width, height, density).trace| > |w1.trace|;
    }
  }

  /** The corrected `SetSize` finds the same request in place the second time. */
  lemma SetSizeRepeatIsNoOp(env: Env, w: World, width: int, height: int, density: real)
    requires Progress(env)
    ensures var w1 := SetSize(env, w, width, height, density);
            SetSize(env, w1, width, height, density) == w1
  {
    var w1 := SetSize(env, w, width, height, density);
    assert SizeInPlace(w1.view, width, height, density);
  }

  // ----- setSceneContent writes the content only up to a NUL -------------------

  /** What `out << s.c_str()` writes: the characters before the first NUL. */
  function CStr(s: string): (r: string)
    ensures r <= s
    ensures '\0' !in r
    ensures |r| < |s| ==> s[|r|] == '\0'
    decreases |s|
  {
    if |s| == 0 || s[0] == '\0' then [] else [s[0]] + CStr(s[1..])
  }

  /** `Paparazzi::setSceneContent` with the cache file written as the source writes it. */
  function SetSceneContentAsWritten(env: Env, md5: string -> string, w: World, content: string): (r: World)
    requires Progress(env)
    ensures r.view == w.view.(scene := md5(content))
    ensures md5(content) == w.view.scene ==> r == w
    ensures md5(content) != w.view.scene ==> r.files == w.files[CachePath(md5(content)) := CStr(content)]
  {
    var id := md5(content);
    if id == w.view.scene then w
    else
      var written := w.(files := w.files[CachePath(id) := CStr(content)]);
      Push(env, written, [Call.LoadScene(CachePath(id))], w.view.(scene := id))
  }

  /** Content without a NUL is written whole. */
  lemma CStrWithoutNul(s: string)
    requires '\0' !in s
    ensures CStr(s) == s
  {
  }

  /** For a body without a NUL the setter as written and the corrected one agree. */
  lemma SetSceneContentAsWrittenAgrees(env: Env, md5: string -> string, w: World, content: string)
    requires Progress(env)
    requires '\0' !in content
    ensures SetSceneContentAsWritten(env, md5, w, content) == SetSceneContent(env, md5, w, content)
  {
    CStrWithoutNul(content);
  }

  /**
   * A scene body with a NUL in it, under a hash that tells the two texts
   * apart, leaves a cache file whose content does not hash to its name.
   */
  lemma SetSceneContentAsWrittenBreaksCache(env: Env, md5: string -> string, w: World, content: string)
    requires Progress(env)
    requires md5(content) != w.view.scene
    requires md5(CStr(content)) != md5(content)
    ensures !CacheConsistent(md5, SetSceneContentAsWritten(env, md5, w, content).files)
  {
    var files := SetSceneContentAsWritten(env, md5, w, content).files;
    assert files[CachePath(md5(content))] == CStr(content);
  }

  /** Concretely: a fresh worker sent the body "a", NUL, "b", hashing each text to itself. */
  lemma NulBodyBreaksCache(env: Env)
    requires Progress(env)
    ensures var md5 := (s: string) => s;
            && CacheConsistent(md5, Init(env).files)
            && !CacheConsistent(md5, SetSceneContentAsWritten(env, md5, Init(env), "a\0b").files)
  {
    var md5 := (s: string) => s;
    assert CStr("a\0b") == "a";
    SetSceneContentAsWrittenBreaksCache(env, md5, Init(env), "a\0b");
  }
}

=== FILE: numbers.dfy ===
/**
 * The C++ standard-library number conversions the request handler relies on:
 * `std::stoi`, `std::stof`/`std::stod`, `std::to_string` of a size, and
 * `istringstream >> int` on a string of decimal digits.
 */
module Numbers {
  import opened Wrappers

  /** Range of a 32-bit `int`. */
  const IntMin: int := -2147483648
  const IntMax: int := 2147483647

  predicate IsDigit(ch: char) {
    '0' <= ch <= '9'
  }

  /** The characters C's `isspace` accepts in the "C" locale. */
  predicate IsSpace(ch: char) {
    ch == ' ' || ch == '\t' || ch == '\n' || ch == '\U{000B}' || ch == '\U{000C}' || ch == '\r'
  }

  predicate AllDigits(s: string) {
    forall i :: 0 <= i < |s| ==> IsDigit(s[i])
  }

  /** Every character from `i` up to `j` is a digit. */
  predicate DigitsBetween(s: string, i: nat, j: nat)
    requires i <= j <= |s|
  {
    forall k {:trigger IsDigit(s[k])} :: i <= k < j ==> IsDigit(s[k])
  }

  lemma DigitsSlice(s: string, i: nat, j: nat)
    requires i <= j <= |s|
    requires DigitsBetween(s, i, j)
    ensures AllDigits(s[i..j])
  {
    assert forall k :: 0 <= k < j - i ==> s[i..j][k] == s[i + k];
  }

  lemma SliceDigits(s: string, i: nat, j: nat)
    requires i <= j <= |s|
    requires AllDigits(s[i..j])
    ensures DigitsBetween(s, i, j)
  {
    forall k | i <= k < j
      ensures IsDigit(s[k])
    {
      assert s[i..j][k - i] == s[k];
    }
  }

  function DigitValue(ch: char): nat
    requires IsDigit(ch)
  {
    ch as int - '0' as int
  }

  function DigitChar(d: nat): (ch: char)
    requires d < 10
    ensures IsDigit(ch) && DigitValue(ch) == d
  {
    ('0' as int + d) as char
  }

  /** The number a string of decimal digits denotes (most significant first). */
  function DigitsValue(s: string): nat
    requires AllDigits(s)
    decreases |s|
  {
    if |s| == 0 then 0 else DigitsValue(s[..|s| - 1]) * 10 + DigitValue(s[|s| - 1])
  }

  function Pow10(k: nat): (r: nat)
    ensures r >= 1
  {
    if k == 0 then 1 else 10 * Pow10(k - 1)
  }

  /** `std::to_string` of an unsigned size: canonical decimal, no leading zero. */
  function NatToString(n: nat): (s: string)
    ensures 1 <= |s| && AllDigits(s)
    ensures s[0] == '0' ==> s == "0"
  {
    if n < 10 then [DigitChar(n)] else NatToString(n / 10) + [DigitChar(n % 10)]
  }

  /** Decimal text of a signed integer, with a leading '-' when negative. */
  function IntToString(v: int): (s: string)
    ensures 1 <= |s|
  {
    if v < 0 then "-" + NatToString(-v) else NatToString(v)
  }

  /** Reading back the decimal text of a size yields the size. */
  lemma {:induction false} NatToStringRoundTrip(n: nat)
    ensures DigitsValue(NatToString(n)) == n
  {
    if n >= 10 {
      var s := NatToString(n);
      assert s[..|s| - 1] == NatToString(n / 10);
      NatToStringRoundTrip(n / 10);
    }
  }

  /** Length of the run of characters satisfying `isspace` that starts at `i`. */
  function SpaceRun(s: string, i: nat): (n: nat)
    requires i <= |s|
    ensures i + n <= |s|
    ensures forall k :: i <= k < i + n ==> IsSpace(s[k])
    ensures i + n == |s| || !IsSpace(s[i + n])
    decreases |s| - i
  {
    if i < |s| && IsSpace(s[i]) then 1 + SpaceRun(s, i + 1) else 0
  }

  /** Length of the maximal run of decimal digits that starts at `i`. */
  function DigitRun(s: string, i: nat): (n: nat)
    requires i <= |s|
    ensures i + n <= |s|
    ensures i + n == |s| || !IsDigit(s[i + n])
    decreases |s| - i
  {
    if i < |s| && IsDigit(s[i]) then 1 + DigitRun(s, i + 1) else 0
  }

  /** Every character of the run is a digit. */
  lemma {:induction false} DigitRunDigits(s: string, i: nat)
    requires i <= |s|
    ensures DigitsBetween(s, i, i + DigitRun(s, i))
    decreases |s| - i
  {
    if i < |s| && IsDigit(s[i]) {
      DigitRunDigits(s, i + 1);
    }
  }

  /** A maximal digit run is determined by where it starts. */
  lemma {:induction false} DigitRunUnique(s: string, i: nat, k: nat)
    requires i + k <= |s|
    requires DigitsBetween(s, i, i + k)
    requires i + k == |s| || !IsDigit(s[i + k])
    ensures DigitRun(s, i) == k
    decreases k
  {
    if k > 0 {
      assert IsDigit(s[i]);
      DigitRunUnique(s, i + 1, k - 1);
    }
  }

  /** Where the optional sign ends and the digits of a number begin, after leading white space. */
  function NumberStart(s: string): (j: nat)
    ensures j <= |s|
  {
    var i := SpaceRun(s, 0);
    if i < |s| && (s[i] == '-' || s[i] == '+') then i + 1 else i
  }

  predicate Negative(s: string) {
    var i := SpaceRun(s, 0);
    i < |s| && s[i] == '-'
  }

  /**
   * `std::stoi`: white space, an optional sign and at least one digit;
   * whatever follows the digits is ignored. No digits, or a value outside
   * the 32-bit range, is an error (`invalid_argument` / `out_of_range`).
   */
  function ParseInt(s: string): (r: Option<int>)
    ensures r.Some? ==> IntMin <= r.value <= IntMax
    ensures r.Some? ==> DigitRun(s, NumberStart(s)) > 0
    ensures DigitRun(s, NumberStart(s)) == 0 ==> r.None?
  {
    var j := NumberStart(s);
    var n := DigitRun(s, j);
    if n == 0 then None
    else
      DigitRunDigits(s, j);
      DigitsSlice(s, j, j + n);
      var magnitude: int := DigitsValue(s[j..j + n]);
      var v := if Negative(s) then -magnitude else magnitude;
      if IntMin <= v <= IntMax then Some(v) else None
  }

  /** The value of the digits after a decimal point. */
  function Fraction(ds: string): (r: real)
    requires AllDigits(ds)
    ensures 0.0 <= r < 1.0
  {
    var num := DigitsValue(ds) as real;
    var den := Pow10(|ds|) as real;
    LemmaDigitsBelowPow10(ds);
    assert num < den;
    LemmaQuotientBelowOne(num, den);
    num / den
  }

  lemma LemmaQuotientBelowOne(num: real, den: real)
    requires 0.0 <= num < den
    ensures 0.0 <= num / den < 1.0
  {
    assert num / den * den == num;
  }

  /** The value of the run of digits at `i`, read as the digits after a decimal point. */
  function FractionAt(s: string, i: nat): (r: real)
    requires i <= |s|
    ensures 0.0 <= r < 1.0
  {
    var f := DigitRun(s, i);
    DigitRunDigits(s, i);
    DigitsSlice(s, i, i + f);
    Fraction(s[i..i + f])
  }

  lemma {:induction false} LemmaDigitsBelowPow10(ds: string)
    requires AllDigits(ds)
    ensures DigitsValue(ds) < Pow10(|ds|)
    decreases |ds|
  {
    if |ds| > 0 {
      LemmaDigitsBelowPow10(ds[..|ds| - 1]);
    }
  }

  /** A decimal digit at position `i`. */
  predicate DigitAt(s: string, i: nat) {
    i < |s| && IsDigit(s[i])
  }

  /**
   * `std::stof` / `std::stod` restricted to plain decimal notation: white
   * space, an optional sign, digits with an optional fractional part, and at
   * least one digit in all; whatever follows is ignored. Anything else is an
   * error (`invalid_argument`).
   */
  function ParseReal(s: string): (r: Option<real>)
    ensures r.None? <==> var j := NumberStart(s);
                         !DigitAt(s, j) && !(j < |s| && s[j] == '.' && DigitAt(s, j + 1))
    ensures r.Some? ==> (r.value < 0.0 ==> Negative(s))
  {
    var j := NumberStart(s);
    var n := DigitRun(s, j);
    var hasPoint := j + n < |s| && s[j + n] == '.';
    var f := if hasPoint then DigitRun(s, j + n + 1) else 0;
    if n + f == 0 then None
    else
      DigitRunDigits(s, j);
      DigitsSlice(s, j, j + n);
      var whole := DigitsValue(s[j..j + n]) as real;
      var magnitude := whole + (if hasPoint then FractionAt(s, j + n + 1) else 0.0);
      Some(if Negative(s) then -magnitude else magnitude)
  }

  /** `std::stoi` reads back the decimal text of every 32-bit integer. */
  lemma ParseIntRoundTrip(v: int)
    requires IntMin <= v <= IntMax
    ensures ParseInt(IntToString(v)) == Some(v)
  {
    var s := IntToString(v);
    var digits := NatToString(if v < 0 then -v else v);
    assert SpaceRun(s, 0) == 0;
    var j := NumberStart(s);
    assert s[j..] == digits;
    DigitRunUnique(s, j, |digits|);
    assert s[j..j + |digits|] == digits;
    NatToStringRoundTrip(if v < 0 then -v else v);
  }

  /** `std::stod` reads back the decimal text of every integer as that number. */
  lemma ParseRealOfInt(v: int)
    ensures ParseReal(IntToString(v)) == Some(v as real)
  {
    var s := IntToString(v);
    var digits := NatToString(if v < 0 then -v else v);
    assert SpaceRun(s, 0) == 0;
    var j := NumberStart(s);
    assert s[j..] == digits;
    DigitRunUnique(s, j, |digits|);
    assert s[j..j + |digits|] == digits;
    NatToStringRoundTrip(if v < 0 then -v else v);
  }

  /** Where the parts of digits, a point and digits lie in the text they make up. */
  lemma DecimalShape(a: string, b: string)
    requires AllDigits(a) && AllDigits(b)
    ensures var s := a + "." + b;
      && NumberStart(s) == 0 && DigitRun(s, 0) == |a| && s[|a|] == '.' && DigitRun(s, |a| + 1) == |b|
      && s[0..|a|] == a && s[|a| + 1..|s|] == b && !Negative(s)
  {
    var s := a + "." + b;
    assert s[|a|] == '.';
    if |a| > 0 {
      assert s[0] == a[0];
    }
    assert SpaceRun(s, 0) == 0;
    assert s[0..|a|] == a;
    assert s[|a| + 1..|s|] == b;
    SliceDigits(s, 0, |a|);
    SliceDigits(s, |a| + 1, |s|);
    DigitRunUnique(s, 0, |a|);
    DigitRunUnique(s, |a| + 1, |b|);
  }

  /** `ParseReal` on text whose number is the digits `a`, a point and the digits `b`. */
  lemma ParseRealPointAt(s: string, a: string, b: string)
    requires AllDigits(a) && AllDigits(b) && |a| + |b| > 0
    requires NumberStart(s) == 0 && !Negative(s)
    requires DigitRun(s, 0) == |a| && |a| < |s| && s[|a|] == '.' && DigitRun(s, |a| + 1) == |b|
    requires s[0..|a|] == a && s[|a| + 1..|a| + 1 + |b|] == b
    ensures ParseReal(s) == Some(DigitsValue(a) as real + Fraction(b))
  {
    var frac := FractionAt(s, |a| + 1);
    assert frac == Fraction(b);
  }

  /**
   * `std::stod` reads digits, a point and digits as the whole part plus the
   * fraction the digits after the point denote.
   */
  lemma ParseRealDecimal(a: string, b: string)
    requires AllDigits(a) && AllDigits(b) && |a| + |b| > 0
    ensures ParseReal(a + "." + b) == Some(DigitsValue(a) as real + Fraction(b))
  {
    var s := a + "." + b;
    DecimalShape(a, b);
    assert |s| == |a| + 1 + |b|;
    ParseRealPointAt(s, a, b);
  }

  /** For example, "40.7" reads as 40.7. */
  lemma ParseRealFortyPointSeven()
    ensures ParseReal("40.7") == Some(40.7)
  {
    ParseRealDecimal("40", "7");
    assert "40" + "." + "7" == "40.7";
    assert DigitsValue("40") == 40 by {
      assert "40"[..1] == "4";
    }
    assert Fraction("7") == 0.7;
  }

  /** `istringstream >> int` reads back the decimal text of every size, saturating above the `int` range. */
  lemma StreamIntRoundTrip(n: nat)
    ensures StreamInt(NatToString(n)) == if n <= IntMax then n else IntMax
  {
    NatToStringRoundTrip(n);
  }

  /**
   * `istringstream >> int` on a string of digits: an empty string fails and
   * leaves 0; a value too large for `int` saturates at its maximum.
   */
  function StreamInt(g: string): (r: nat)
    requires AllDigits(g)
    ensures r <= IntMax
    ensures |g| > 0 && DigitsValue(g) <= IntMax ==> r == DigitsValue(g)
    ensures |g| == 0 ==> r == 0
    ensures DigitsValue(g) > IntMax ==> r == IntMax
  {
    if |g| == 0 then 0 else if DigitsValue(g) <= IntMax then DigitsValue(g) else IntMax
  }
}

=== FILE: paparazzi.dfy ===
/**
 * The `Paparazzi` view record and its diff-and-push setters: each setter
 * compares the requested value with the stored one, and only when they
 * differ stores it, makes the matching engine call and pumps the engine.
 */
module Paparazzi {
  import opened Wrappers
  import opened Engine
  import opened UpdateLoop

  /** `AA_SCALE`: the map renders at twice the image size. */
  const AaScale: real := 2.0

  /** The scene loaded at start-up. */
  const DefaultScene: string := "scene.yaml"

  /** `M_PI`, used by `glm::radians`. */
  const Pi: real := 3.14159265358979323846

  /**
   * The stored view: `m_scene`, `m_width`, `m_height` (physical pixels),
   * the engine's pixel scale, `m_lon`, `m_lat`, `m_zoom`, and `m_tilt`,
   * `m_rotation` in degrees.
   */
  datatype View = View(
    scene: string,
    width: int,
    height: int,
    pixelScale: real,
    lon: real,
    lat: real,
    zoom: real,
    tilt: real,
    rotation: real)

  /**
   * A worker: its view record, every call so far that changes what the
   * engine or the GL context holds, and the files it wrote.
   */
  datatype World = World(view: View, trace: Trace, files: map<string, string>)

  /** Conversion of a floating-point value to `int`, which truncates toward zero. */
  function Trunc(x: real): (r: int)
    ensures 0.0 <= x ==> r as real <= x < r as real + 1.0
    ensures x < 0.0 ==> r as real - 1.0 < x <= r as real
  {
    if x >= 0.0 then x.Floor else -((-x).Floor)
  }

  /** A logical size scaled by the pixel density, as stored in `m_width`/`m_height`. */
  function Physical(size: int, density: real): int {
    Trunc(density * size as real)
  }

  function Radians(deg: real): real {
    deg * Pi / 180.0
  }

  /** The file an inline scene with content hash `id` is written to. */
  function CachePath(id: string): string {
    "cache/" + id + ".yaml"
  }

  /** Distinct scene ids never share a cache file. */
  lemma CachePathInjective(a: string, b: string)
    ensures CachePath(a) == CachePath(b) ==> a == b
  {
    if CachePath(a) == CachePath(b) {
      assert a == CachePath(a)[6..6 + |a|];
      assert b == CachePath(b)[6..6 + |b|];
    }
  }

  /** Every cache file holds content whose hash is the id in its name. */
  ghost predicate CacheConsistent(md5: string -> string, files: map<string, string>) {
    forall id :: CachePath(id) in files ==> md5(files[CachePath(id)]) == id
  }

  /** The engine holds `value`, or was never told and `value` is its starting one. */
  predicate Shows<T(==)>(pushed: Option<T>, value: T, initial: T) {
    if pushed.Some? then pushed.value == value else value == initial
  }

  /** The engine holds exactly what the view record says was last pushed to it. */
  ghost predicate Mirrors(w: World) {
    var e := Replay(w.trace);
    && (|| e.scene == Some(w.view.scene)
        || (e.scene == Some(CachePath(w.view.scene)) && CachePath(w.view.scene) in w.files))
    && e.pixelScale == Some(w.view.pixelScale)
    && e.size == Some((w.view.width as real * AaScale, w.view.height as real * AaScale))
    && e.glSize == Some((w.view.width, w.view.height))
    && Shows(e.position, (w.view.lon, w.view.lat), (0.0, 0.0))
    && Shows(e.zoom, w.view.zoom, 0.0)
    && Shows(e.tilt, Radians(w.view.tilt), 0.0)
    && Shows(e.rotation, Radians(w.view.rotation), 0.0)
  }

  /** Make `calls`, pump the engine, and keep `view` as the new record. */
  function Push(env: Env, w: World, calls: Trace, view: View): (r: World)
    requires Progress(env)
    ensures r.view == view && r.files == w.files
    ensures PushThenPump(env, w.trace, calls, r.trace)
    ensures Replay(r.trace) == ApplyAll(Replay(w.trace), calls)
    ensures Quiet(calls, 0) ==> w.trace <= r.trace && Quiet(r.trace, |w.trace|)
  {
    var t := Pump(env, w.trace + calls);
    ApplyAllAppend(Blank, w.trace, calls);
    assert (w.trace + calls) + [] == w.trace + calls;
    World(view, t, w.files)
  }

  /** `Paparazzi::setZoom`. */
  function SetZoom(env: Env, w: World, zoom: real): (r: World)
    requires Progress(env)
    ensures r.view == w.view.(zoom := zoom) && r.files == w.files
    ensures zoom == w.view.zoom ==> r == w
    ensures zoom != w.view.zoom ==> PushThenPump(env, w.trace, [Call.SetZoom(zoom)], r.trace)
    ensures w.trace <= r.trace && Quiet(r.trace, |w.trace|)
    ensures Mirrors(w) ==> Mirrors(r)
  {
    if zoom == w.view.zoom then w
    else Push(env, w, [Call.SetZoom(zoom)], w.view.(zoom := zoom))
  }

  /** `Paparazzi::setTilt`: stored in degrees, pushed in radians. */
  function SetTilt(env: Env, w: World, deg: real): (r: World)
    requires Progress(env)
    ensures r.view == w.view.(tilt := deg) && r.files == w.files
    ensures deg == w.view.tilt ==> r == w
    ensures deg != w.view.tilt ==> PushThenPump(env, w.trace, [Call.SetTilt(Radians(deg))], r.trace)
    ensures w.trace <= r.trace && Quiet(r.trace, |w.trace|)
    ensures Mirrors(w) ==> Mirrors(r)
  {
    if deg == w.view.tilt then w
    else Push(env, w, [Call.SetTilt(Radians(deg))], w.view.(tilt := deg))
  }

  /** `Paparazzi::setRotation`: stored in degrees, pushed in radians. */
  function SetRotation(env: Env, w: World, deg: real): (r: World)
    requires Progress(env)
    ensures r.view == w.view.(rotation := deg) && r.files == w.files
    ensures deg == w.view.rotation ==> r == w
    ensures deg != w.view.rotation ==> PushThenPump(env, w.trace, [Call.SetRotation(Radians(deg))], r.trace)
    ensures w.trace <= r.trace && Quiet(r.trace, |w.trace|)
    ensures Mirrors(w) ==> Mirrors(r)
  {
    if deg == w.view.rotation then w
    else Push(env, w, [Call.SetRotation(Radians(deg))], w.view.(rotation := deg))
  }

  /** `Paparazzi::setPosition`: skipped only when both coordinates are unchanged. */
  function SetPosition(env: Env, w: World, lon: real, lat: real): (r: World)
    requires Progress(env)
    ensures r.view == w.view.(lon := lon, lat := lat) && r.files == w.files
    ensures lon == w.view.lon && lat == w.view.lat ==> r == w
    ensures lon != w.view.lon || lat != w.view.lat ==>
      PushThenPump(env, w.trace, [Call.SetPosition(lon, lat)], r.trace)
    ensures w.trace <= r.trace && Quiet(r.trace, |w.trace|)
    ensures Mirrors(w) ==> Mirrors(r)
  {
    if lon == w.view.lon && lat == w.view.lat then w
    else Push(env, w, [Call.SetPosition(lon, lat)], w.view.(lon := lon, lat := lat))
  }

  /** `Paparazzi::setScene`: a scene given by URL is loaded from that URL. */
  function SetScene(env: Env, w: World, url: string): (r: World)
    requires Progress(env)
    ensures r.view == w.view.(scene := url) && r.files == w.files
    ensures url == w.view.scene ==> r == w
    ensures url != w.view.scene ==> PushThenPump(env, w.trace, [Call.LoadScene(url)], r.trace)
    ensures w.trace <= r.trace && Quiet(r.trace, |w.trace|)
    ensures Mirrors(w) ==> Mirrors(r)
  {
    if url == w.view.scene then w
    else Push(env, w, [Call.LoadScene(url)], w.view.(scene := url))
  }

  /** Writing a scene body under its own hash keeps the cache consistent. */
  lemma CacheWriteConsistent(md5: string -> string, files: map<string, string>, content: string)
    ensures CacheConsistent(md5, files) ==> CacheConsistent(md5, files[CachePath(md5(content)) := content])
  {
    if CacheConsistent(md5, files) {
      var files' := files[CachePath(md5(content)) := content];
      forall id | CachePath(id) in files'
        ensures md5(files'[CachePath(id)]) == id
      {
        CachePathInjective(id, md5(content));
      }
    }
  }

  /**
   * `Paparazzi::setSceneContent`: an inline scene is identified by the hash
   * of its content, written to its cache file and loaded from there.
   */
  function SetSceneContent(env: Env, md5: string -> string, w: World, content: string): (r: World)
    requires Progress(env)
    ensures r.view == w.view.(scene := md5(content))
    ensures md5(content) == w.view.scene ==> r == w
    ensures md5(content) != w.view.scene ==>
      && r.files == w.files[CachePath(md5(content)) := content]
      && PushThenPump(env, w.trace, [Call.LoadScene(CachePath(md5(content)))], r.trace)
    ensures w.trace <= r.trace && Quiet(r.trace, |w.trace|)
    ensures Mirrors(w) ==> Mirrors(r)
    ensures CacheConsistent(md5, w.files) ==> CacheConsistent(md5, r.files)
  {
    var id := md5(content);
    if id == w.view.scene then w
    else
      var written := w.(files := w.files[CachePath(id) := content]);
      CacheWriteConsistent(md5, w.files, content);
      Push(env, written, [Call.LoadScene(CachePath(id))], w.view.(scene := id))
  }

  /** The size, density and pixel scale already in place: `setSize` has nothing to do. */
  predicate SizeInPlace(v: View, width: int, height: int, density: real) {
    && Physical(width, density) == v.width
    && Physical(height, density) == v.height
    && density * AaScale == v.pixelScale
  }

  /** `setPixelScale` is called only when the scale changes. */
  function ScaleCalls(current: real, scale: real): Trace {
    if scale != current then [Call.SetPixelScale(scale)] else []
  }

  /** The calls `setSize` makes before it pumps. */
  function SizeCalls(v: View, width: int, height: int, density: real): Trace {
    var pw, ph := Physical(width, density), Physical(height, density);
    ScaleCalls(v.pixelScale, density * AaScale) + [Call.Resize(pw as real * AaScale, ph as real * AaScale)]
  }

  /** The engine state after the calls `setSize` makes. */
  lemma SizeCallsReplay(e: EngineState, v: View, width: int, height: int, density: real)
    ensures
      var pw, ph := Physical(width, density), Physical(height, density);
      var scaled := if density * AaScale != v.pixelScale then e.(pixelScale := Some(density * AaScale)) else e;
      ApplyAll(e, SizeCalls(v, width, height, density)) == scaled.(size := Some((pw as real * AaScale, ph as real * AaScale)))
  {
    var pw, ph := Physical(width, density), Physical(height, density);
    var calls := SizeCalls(v, width, height, density);
    var scaleCall := ScaleCalls(v.pixelScale, density * AaScale);
    ApplySnoc(e, scaleCall, calls[|calls| - 1]);
    if |scaleCall| == 1 {
      ApplySnoc(e, [], scaleCall[0]);
      assert [] + [scaleCall[0]] == scaleCall;
    }
  }

  /** The changing branch of `setSize`: push `calls`, pump, then size the GL context. */
  function Resized(env: Env, w: World, pw: int, ph: int, calls: Trace, scale: real): (r: World)
    requires Progress(env)
    requires Quiet(calls, 0)
    ensures r.view == w.view.(width := pw, height := ph, pixelScale := scale) && r.files == w.files
    ensures r.trace == Push(env, w, calls, r.view).trace + [Call.GlResize(pw, ph)]
    ensures Replay(r.trace) == ApplyAll(Replay(w.trace), calls).(glSize := Some((pw, ph)))
    ensures w.trace <= r.trace && Quiet(r.trace, |w.trace|)
  {
    var resized := Push(env, w, calls, w.view.(width := pw, height := ph, pixelScale := scale));
    ApplySnoc(Blank, resized.trace, Call.GlResize(pw, ph));
    resized.(trace := resized.trace + [Call.GlResize(pw, ph)])
  }

  /**
   * The changing branch of `Paparazzi::setSize`: store the physical size,
   * set the pixel scale if it changed, resize the map to the anti-aliased
   * size, pump, and resize the GL context to the physical size.
   */
  function ApplySize(env: Env, w: World, width: int, height: int, density: real): (r: World)
    requires Progress(env)
    ensures r.view == w.view.(width := Physical(width, density), height := Physical(height, density),
                              pixelScale := density * AaScale)
    ensures r.files == w.files
    ensures |r.trace| > 0
    ensures r.trace[|r.trace| - 1] == Call.GlResize(Physical(width, density), Physical(height, density))
    ensures PushThenPump(env, w.trace, SizeCalls(w.view, width, height, density), r.trace[..|r.trace| - 1])
    ensures w.trace <= r.trace && Quiet(r.trace, |w.trace|)
    ensures Replay(r.trace) == ApplyAll(Replay(w.trace), SizeCalls(w.view, width, height, density))
                                 .(glSize := Some((Physical(width, density), Physical(height, density))))
  {
    var pw, ph := Physical(width, density), Physical(height, density);
    var calls := SizeCalls(w.view, width, height, density);
    var view := w.view.(width := pw, height := ph, pixelScale := density * AaScale);
    PushThenPumpSnoc(env, w.trace, calls, Push(env, w, calls, view).trace, Call.GlResize(pw, ph));
    Resized(env, w, pw, ph, calls, density * AaScale)
  }

  /**
   * `Paparazzi::setSize`, deciding whether anything changed on the stored
   * (truncated) sizes; see `Findings.SetSizeAsWritten` for the source's test.
   */
  function SetSize(env: Env, w: World, width: int, height: int, density: real): (r: World)
    requires Progress(env)
    ensures r.view == w.view.(width := Physical(width, density), height := Physical(height, density),
                              pixelScale := density * AaScale)
    ensures r.files == w.files
    ensures SizeInPlace(r.view, width, height, density)
    ensures SizeInPlace(w.view, width, height, density) ==> r == w
    ensures !SizeInPlace(w.view, width, height, density) ==>
      && |r.trace| > 0
      && r.trace[|r.trace| - 1] == Call.GlResize(Physical(width, density), Physical(height, density))
      && PushThenPump(env, w.trace, SizeCalls(w.view, width, height, density), r.trace[..|r.trace| - 1])
    ensures w.trace <= r.trace && Quiet(r.trace, |w.trace|)
    ensures Mirrors(w) ==> Mirrors(r)
  {
    if SizeInPlace(w.view, width, height, density) then w
    else
      ApplySizeMirrors(env, w, width, height, density);
      ApplySize(env, w, width, height, density)
  }

  /** A resize keeps the engine in step with the view record. */
  lemma ApplySizeMirrors(env: Env, w: World, width: int, height: int, density: real)
    requires Progress(env)
    ensures Mirrors(w) ==> Mirrors(ApplySize(env, w, width, height, density))
  {
    if Mirrors(w) {
      var e, r := Replay(w.trace), ApplySize(env, w, width, height, density);
      var pw, ph := Physical(width, density), Physical(height, density);
      SizeCallsReplay(e, w.view, width, height, density);
      var scaled := if density * AaScale != w.view.pixelScale then e.(pixelScale := Some(density * AaScale)) else e;
      assert Replay(r.trace) == scaled.(size := Some((pw as real * AaScale, ph as real * AaScale)), glSize := Some((pw, ph)));
    }
  }

  /** The view record a worker starts with: 100x100, centred at 0/0, zoom 0. */
  const StartView: View := View(DefaultScene, 100, 100, AaScale, 0.0, 0.0, 0.0, 0.0, 0.0)

  /** The calls the constructor makes before its first pump. */
  const StartCalls: Trace := [Call.GlResize(100, 100), LoadScene(DefaultScene), SetPixelScale(AaScale), Call.Resize(200.0, 200.0)]

  lemma StartCallsReplay()
    ensures ApplyAll(Blank, StartCalls)
         == Blank.(scene := Some(DefaultScene), pixelScale := Some(AaScale),
                   size := Some((200.0, 200.0)), glSize := Some((100, 100)))
  {
    var s := StartCalls;
    ApplySnoc(Blank, [], s[0]);
    assert [] + [s[0]] == [s[0]];
    ApplySnoc(Blank, [s[0]], s[1]);
    assert [s[0]] + [s[1]] == [s[0], s[1]];
    ApplySnoc(Blank, [s[0], s[1]], s[2]);
    assert [s[0], s[1]] + [s[2]] == [s[0], s[1], s[2]];
    ApplySnoc(Blank, [s[0], s[1], s[2]], s[3]);
    assert [s[0], s[1], s[2]] + [s[3]] == s;
  }

  /**
   * The `Paparazzi` constructor: size the GL context, load the default scene,
   * set pixel scale and size, pump, then `setSize(100, 100, 1.0)`, which
   * finds everything in place.
   */
  function Init(env: Env): (w: World)
    requires Progress(env)
    ensures w.view == StartView && w.files == map[]
    ensures PushThenPump(env, [], StartCalls, w.trace)
    ensures Quiet(w.trace, 0)
    ensures Mirrors(w)
  {
    StartCallsReplay();
    var booted := Push(env, World(StartView, [], map[]), StartCalls, StartView);
    SetSize(env, booted, 100, 100, 1.0)
  }

  /** Repeating any setter with the same arguments changes nothing more. */
  lemma SettersIdempotent(env: Env, md5: string -> string, w: World,
                          width: int, height: int, density: real, lon: real, lat: real,
                          zoom: real, tilt: real, rotation: real, url: string, content: string)
    requires Progress(env)
    ensures SetSize(env, SetSize(env, w, width, height, density), width, height, density)
         == SetSize(env, w, width, height, density)
    ensures SetPosition(env, SetPosition(env, w, lon, lat), lon, lat) == SetPosition(env, w, lon, lat)
    ensures SetZoom(env, SetZoom(env, w, zoom), zoom) == SetZoom(env, w, zoom)
    ensures SetTilt(env, SetTilt(env, w, tilt), tilt) == SetTilt(env, w, tilt)
    ensures SetRotation(env, SetRotation(env, w, rotation), rotation) == SetRotation(env, w, rotation)
    ensures SetScene(env, SetScene(env, w, url), url) == SetScene(env, w, url)
    ensures SetSceneContent(env, md5, SetSceneContent(env, md5, w, content), content)
         == SetSceneContent(env, md5, w, content)
  {
  }
}

=== FILE: request.dfy ===
/**
 * Reading a render request: which query fields are present, the tile path
 * `/{z}/{x}/{y}.png`, the pixel density, and the optional tilt/rotation.
 */
module Request {
  import opened Wrappers
  import opened Numbers

  /** The query string: every key with the values given for it, in order. */
  type Query = map<string, seq<string>>

  /** An HTTP request as the transport hands it over. */
  datatype HttpRequest = HttpRequest(path: string, query: Query, body: string)

  /** A key counts as given when it appears with at least one value. */
  predicate Present(q: Query, key: string) {
    key in q && |q[key]| > 0
  }

  /** The first value given for a key. */
  function First(q: Query, key: string): string
    requires Present(q, key)
  {
    q[key][0]
  }

  // ----- tile path ---------------------------------------------------------

  /** The three capture groups of `\/(\d*)\/(\d*)\/(\d*)\.png`. */
  datatype TileGroups = TileGroups(z: string, x: string, y: string)

  /** The four characters `.png` start at `f`. */
  predicate PngAt(path: string, f: nat) {
    && f + 4 <= |path|
    && path[f] == '.' && path[f + 1] == 'p' && path[f + 2] == 'n' && path[f + 3] == 'g'
  }

  /**
   * The tile pattern matches `path` at position `p` with groups `m`: three
   * strings of digits, each after a '/', the last followed by ".png".
   */
  ghost predicate MatchesAt(path: string, p: nat, m: TileGroups) {
    var b := p + 1 + |m.z|;
    var d := b + 1 + |m.x|;
    var f := d + 1 + |m.y|;
    && PngAt(path, f)
    && AllDigits(m.z) && AllDigits(m.x) && AllDigits(m.y)
    && path[p] == '/' && path[p + 1..b] == m.z
    && path[b] == '/' && path[b + 1..d] == m.x
    && path[d] == '/' && path[d + 1..f] == m.y
  }

  /** Where the run of digits that starts at `i` ends. */
  function RunEnd(path: string, i: nat): (j: nat)
    requires i <= |path|
    ensures i <= j <= |path|
  {
    i + DigitRun(path, i)
  }

  /**
   * The match of the tile pattern at position `p`. A digit group followed
   * by '/' or '.' can only be the whole run of digits there, so at most one
   * match starts at each position.
   */
  function MatchAt(path: string, p: nat): Option<TileGroups>
    requires p <= |path|
  {
    if p < |path| && path[p] == '/' then
      var b := RunEnd(path, p + 1);
      if b < |path| && path[b] == '/' then
        var d := RunEnd(path, b + 1);
        if d < |path| && path[d] == '/' then
          var f := RunEnd(path, d + 1);
          if PngAt(path, f) then Some(TileGroups(path[p + 1..b], path[b + 1..d], path[d + 1..f]))
          else None
        else None
      else None
    else None
  }

  /** The run of digits from `i` to its end, as a digit string. */
  lemma RunDigits(path: string, i: nat)
    requires i <= |path|
    ensures DigitsBetween(path, i, RunEnd(path, i)) && AllDigits(path[i..RunEnd(path, i)])
  {
    DigitRunDigits(path, i);
    DigitsSlice(path, i, RunEnd(path, i));
  }

  /** Where `MatchAt` finds a match, its separators sit at the ends of the digit runs. */
  lemma MatchAtShape(path: string, p: nat)
    requires p <= |path| && MatchAt(path, p).Some?
    ensures p < |path| && path[p] == '/'
    ensures var b := RunEnd(path, p + 1); var d := RunEnd(path, b + 1); var f := RunEnd(path, d + 1);
      && b < |path| && path[b] == '/' && d < |path| && path[d] == '/' && PngAt(path, f)
      && MatchAt(path, p).value == TileGroups(path[p + 1..b], path[b + 1..d], path[d + 1..f])
  {
  }

  /** The slice from `i` to the end of its digit run is a digit string. */
  lemma RunSlice(path: string, i: nat, j: nat)
    requires i <= |path| && RunEnd(path, i) == j
    ensures AllDigits(path[i..j])
  {
    RunDigits(path, i);
  }

  /** Three digit runs between the separators and ".png" form a match. */
  lemma RunsMatch(path: string, p: nat, b: nat, d: nat, f: nat)
    requires p < |path| && path[p] == '/'
    requires RunEnd(path, p + 1) == b && b < |path| && path[b] == '/'
    requires RunEnd(path, b + 1) == d && d < |path| && path[d] == '/'
    requires RunEnd(path, d + 1) == f && PngAt(path, f)
    ensures MatchesAt(path, p, TileGroups(path[p + 1..b], path[b + 1..d], path[d + 1..f]))
  {
    RunSlice(path, p + 1, b);
    RunSlice(path, b + 1, d);
    RunSlice(path, d + 1, f);
  }

  /** What `MatchAt` finds is a match, and its groups are digit strings. */
  lemma MatchAtSound(path: string, p: nat)
    requires p <= |path| && MatchAt(path, p).Some?
    ensures MatchesAt(path, p, MatchAt(path, p).value)
    ensures var m := MatchAt(path, p).value; AllDigits(m.z) && AllDigits(m.x) && AllDigits(m.y)
  {
    MatchAtShape(path, p);
    var b := RunEnd(path, p + 1);
    var d := RunEnd(path, b + 1);
    RunsMatch(path, p, b, d, RunEnd(path, d + 1));
  }

  /** A run of `k` digits that ends at the character `c`, which is not a digit, is the whole run. */
  lemma GroupEnd(s: string, i: nat, k: nat, c: char)
    requires i + k < |s| && AllDigits(s[i..i + k])
    requires s[i + k] == c && !IsDigit(c)
    ensures RunEnd(s, i) == i + k
  {
    SliceDigits(s, i, i + k);
    DigitRunUnique(s, i, k);
  }

  /** Where the three digit runs end at the separators, `MatchAt` takes them as the groups. */
  lemma MatchAtRuns(path: string, p: nat, b: nat, d: nat, f: nat)
    requires p < |path| && path[p] == '/'
    requires p + 1 <= |path| && RunEnd(path, p + 1) == b && b < |path| && path[b] == '/'
    requires RunEnd(path, b + 1) == d && d < |path| && path[d] == '/'
    requires RunEnd(path, d + 1) == f && PngAt(path, f)
    ensures MatchAt(path, p) == Some(TileGroups(path[p + 1..b], path[b + 1..d], path[d + 1..f]))
  {
  }

  /** Every match at `p` is the one `MatchAt` finds. */
  lemma MatchAtComplete(path: string, p: nat, m: TileGroups)
    requires MatchesAt(path, p, m)
    ensures p <= |path| && MatchAt(path, p) == Some(m)
  {
    var b := p + 1 + |m.z|;
    var d := b + 1 + |m.x|;
    var f := d + 1 + |m.y|;
    GroupEnd(path, p + 1, |m.z|, '/');
    GroupEnd(path, b + 1, |m.x|, '/');
    GroupEnd(path, d + 1, |m.y|, '.');
    MatchAtRuns(path, p, b, d, f);
  }

  /** The first position at or after `p` where the tile pattern matches. */
  function SearchFrom(path: string, p: nat): (r: Option<nat>)
    requires p <= |path|
    ensures r.Some? ==> p <= r.value <= |path| && MatchAt(path, r.value).Some?
    ensures r.Some? ==> forall k :: p <= k < r.value ==> MatchAt(path, k).None?
    ensures r.None? ==> forall k :: p <= k <= |path| ==> MatchAt(path, k).None?
    decreases |path| - p
  {
    if MatchAt(path, p).Some? then Some(p)
    else if p == |path| then None
    else SearchFrom(path, p + 1)
  }

  /**
   * `std::regex_search` of the tile pattern in the path: the groups of the
   * leftmost match, if the pattern matches anywhere.
   */
  function TileSearch(path: string): (r: Option<TileGroups>)
    ensures r.Some? ==> AllDigits(r.value.z) && AllDigits(r.value.x) && AllDigits(r.value.y)
  {
    match SearchFrom(path, 0)
    case None => None
    case Some(p) =>
      MatchAtSound(path, p);
      MatchAt(path, p)
  }

  /** `regex_search` fails exactly when the tile pattern matches nowhere in the path. */
  lemma TileSearchNone(path: string)
    ensures TileSearch(path).None? <==> forall p: nat, m :: p <= |path| ==> !MatchesAt(path, p, m)
  {
    if TileSearch(path).None? {
      assert SearchFrom(path, 0).None?;
      forall p: nat, m | p <= |path| && MatchesAt(path, p, m) ensures false {
        MatchAtComplete(path, p, m);
      }
    } else {
      var p := SearchFrom(path, 0).value;
      MatchAtSound(path, p);
    }
  }

  /** The groups `regex_search` returns are those of a match with no match to its left. */
  lemma TileSearchLeftmost(path: string)
    requires TileSearch(path).Some?
    ensures exists p: nat :: p <= |path| && MatchesAt(path, p, TileSearch(path).value)
                             && forall k: nat, m :: k < p ==> !MatchesAt(path, k, m)
  {
    var p := SearchFrom(path, 0).value;
    forall k: nat, m | k < p && MatchesAt(path, k, m) ensures false {
      MatchAtComplete(path, k, m);
    }
    MatchAtSound(path, p);
  }

  // ----- view fields ---------------------------------------------------------

  /** All five fields of an explicit view are given. */
  predicate ExplicitFields(q: Query) {
    && Present(q, "width") && Present(q, "height")
    && Present(q, "lat") && Present(q, "lon") && Present(q, "zoom")
  }

  /** The view a request asks for, before its numbers are parsed. */
  datatype ViewRequest =
    | Explicit(width: string, height: string, lon: string, lat: string, zoom: string)
    | TileView(groups: TileGroups)
    | NoView

  /**
   * Which branch the request takes: the explicit view when all five fields
   * are given, otherwise the tile path, otherwise neither.
   */
  function ViewBranch(q: Query, path: string): (b: ViewRequest)
    ensures b.Explicit? <==> ExplicitFields(q)
    ensures b.TileView? <==> !ExplicitFields(q) && TileSearch(path).Some?
    ensures b.NoView? <==> !ExplicitFields(q) && TileSearch(path).None?
    ensures b.Explicit? ==>
      b == Explicit(First(q, "width"), First(q, "height"), First(q, "lon"), First(q, "lat"), First(q, "zoom"))
    ensures b.TileView? ==> TileSearch(path) == Some(b.groups)
  {
    if ExplicitFields(q) then
      Explicit(First(q, "width"), First(q, "height"), First(q, "lon"), First(q, "lat"), First(q, "zoom"))
    else
      match TileSearch(path)
      case Some(m) => TileView(m)
      case None => NoView
  }

  /** The pixel density: `max(1, density)` when given, 1 otherwise; None when it does not parse. */
  function Density(q: Query): (r: Option<real>)
    ensures !Present(q, "density") ==> r == Some(1.0)
    ensures Present(q, "density") ==> (r.None? <==> ParseReal(First(q, "density")).None?)
    ensures r.Some? ==> r.value >= 1.0
    ensures r.Some? && Present(q, "density") ==>
      var given := ParseReal(First(q, "density")).value;
      r.value >= given && (r.value == 1.0 || r.value == given)
  {
    if !Present(q, "density") then Some(1.0)
    else
      match ParseReal(First(q, "density"))
      case None => None
      case Some(d) => Some(if d > 1.0 then d else 1.0)
  }

  /** Tilt or rotation in degrees: 0 when not given; None when it does not parse. */
  function Degrees(q: Query, key: string): (r: Option<real>)
    ensures !Present(q, key) ==> r == Some(0.0)
    ensures Present(q, key) ==> r == ParseReal(First(q, key))
  {
    if Present(q, key) then ParseReal(First(q, key)) else Some(0.0)
  }

  // ----- tile centre ---------------------------------------------------------

  function Pow2(z: nat): (n: nat)
    ensures n >= 1
  {
    if z == 0 then 1 else 2 * Pow2(z - 1)
  }

  /** Longitude of the west edge of column `x` at zoom `z`. */
  function TileWest(z: nat, x: nat): real {
    x as real / Pow2(z) as real * 360.0 - 180.0
  }

  /** Longitude of the centre of column `x` at zoom `z`. */
  function TileLon(z: nat, x: nat): real {
    (x as real + 0.5) / Pow2(z) as real * 360.0 - 180.0
  }

  /** The centre longitude lies halfway between the column's two edges. */
  lemma TileLonIsCentre(z: nat, x: nat)
    ensures TileLon(z, x) == (TileWest(z, x) + TileWest(z, x + 1)) / 2.0
  {
    var n := Pow2(z) as real;
    assert (x as real + 0.5) / n == (x as real / n + (x + 1) as real / n) / 2.0;
  }

  lemma MulMonotone(a: real, b: real)
    requires 0.0 <= a && 0.0 < b
    ensures a * b >= 0.0
  {
  }

  /** A column that exists at zoom `z` has its centre strictly inside (-180, 180). */
  lemma TileLonInRange(z: nat, x: nat)
    requires x < Pow2(z)
    ensures -180.0 < TileLon(z, x) < 180.0
  {
    var n := Pow2(z) as real;
    var u := (x as real + 0.5) / n;
    assert x as real + 0.5 < n;
    assert u * n == x as real + 0.5;
    assert u < 1.0 by {
      if u >= 1.0 {
        MulMonotone(u - 1.0, n);
      }
    }
  }
}

=== FILE: update_loop.dfy ===
/**
 * `Paparazzi::update`: call the engine's `update(10.)` until it reports that
 * no work is pending or `MAX_WAITING_TIME` of wall-clock time has elapsed.
 */
module UpdateLoop {
  import opened Engine

  /** `MAX_WAITING_TIME` (100 s) in the milliseconds `getTime` resolves. */
  const MaxWaitMs: nat := 100000

  /**
   * What the engine and the clock answer, as functions of the calls made so
   * far: `finished(h)` is what the update call ending `h` returns, `now(h)`
   * what `getTime` reads once the calls `h` have been made.
   */
  datatype Env = Env(finished: Trace -> bool, now: Trace -> nat)

  /** Wall-clock time passes across every engine update call. */
  ghost predicate Progress(env: Env) {
    forall h: Trace {:trigger env.now(h + [Update])} :: env.now(h) < env.now(h + [Update])
  }

  /** The loop's exit test after the `k`-th update call of a pump started at `h`. */
  predicate Stops(env: Env, h: Trace, k: nat) {
    env.finished(h + Updates(k)) || env.now(h + Updates(k)) - env.now(h) >= MaxWaitMs
  }

  /** The pump started at `h` makes exactly `n` update calls. */
  ghost predicate StopsAt(env: Env, h: Trace, n: nat) {
    && 1 <= n
    && Stops(env, h, n)
    && forall k :: 1 <= k < n ==> !Stops(env, h, k)
  }

  /** `s` is the whole sequence of update calls of the pump started at `h`. */
  ghost predicate PumpOf(env: Env, h: Trace, s: Trace) {
    s == Updates(|s|) && StopsAt(env, h, |s|)
  }

  /** `t'` is `t` followed by `calls` and then one complete pump. */
  ghost predicate PushThenPump(env: Env, t: Trace, calls: Trace, t': Trace) {
    && |t| + |calls| < |t'|
    && t'[..|t| + |calls|] == t + calls
    && PumpOf(env, t + calls, t'[|t| + |calls|..])
  }

  /** A call made after a pump leaves the pump in place. */
  lemma PushThenPumpSnoc(env: Env, t: Trace, calls: Trace, t': Trace, c: Call)
    requires PushThenPump(env, t, calls, t')
    ensures PushThenPump(env, t, calls, (t' + [c])[..|t'|])
  {
    assert (t' + [c])[..|t'|] == t';
  }

  lemma UpdatesSnoc(h: Trace, k: nat)
    ensures h + Updates(k + 1) == (h + Updates(k)) + [Update]
  {
  }

  /** Number of update calls of the pump started at `h`, `k` calls in. */
  function PumpFrom(env: Env, h: Trace, k: nat): (n: nat)
    requires Progress(env)
    requires 1 <= k
    requires forall j :: 1 <= j < k ==> !Stops(env, h, j)
    ensures k <= n
    ensures StopsAt(env, h, n)
    decreases MaxWaitMs + env.now(h) - env.now(h + Updates(k))
  {
    if Stops(env, h, k) then k
    else
      UpdatesSnoc(h, k);
      PumpFrom(env, h, k + 1)
  }

  /** Number of update calls one pump started after the calls `h` makes. */
  function PumpCalls(env: Env, h: Trace): (n: nat)
    requires Progress(env)
    ensures StopsAt(env, h, n)
  {
    PumpFrom(env, h, 1)
  }

  /** The trace `t` followed by one complete pump. */
  function Pump(env: Env, t: Trace): (t': Trace)
    requires Progress(env)
    ensures PushThenPump(env, t, [], t')
    ensures ApplyAll(Blank, t') == ApplyAll(Blank, t)
    ensures t <= t' && Quiet(t', |t|)
  {
    var n := PumpCalls(env, t);
    IdleCallsKeepState(Replay(t), Updates(n));
    ApplyAllAppend(Blank, t, Updates(n));
    assert t + [] == t;
    t + Updates(n)
  }

  /** A pump makes one well-defined number of update calls. */
  lemma StopsAtUnique(env: Env, h: Trace, n: nat, m: nat)
    requires StopsAt(env, h, n) && StopsAt(env, h, m)
    ensures n == m
  {
  }

  /** The loop as the source writes it, reading the clock after every call. */
  method RunUpdateLoop(env: Env, h: Trace) returns (calls: nat, finished: bool)
    requires Progress(env)
    ensures StopsAt(env, h, calls)
    ensures calls == PumpCalls(env, h)
    ensures finished == env.finished(h + Updates(calls))
  {
    var startTime := env.now(h);
    var delta := 0;
    finished := false;
    calls := 0;
    while delta < MaxWaitMs && !finished
      invariant calls == 0 ==> delta == 0 && !finished
      invariant calls >= 1 ==> delta == env.now(h + Updates(calls)) - startTime
      invariant calls >= 1 ==> finished == env.finished(h + Updates(calls))
      invariant 0 <= delta
      invariant forall k :: 1 <= k < calls ==> !Stops(env, h, k)
      decreases MaxWaitMs - delta
    {
      UpdatesSnoc(h, calls);
      assert h + Updates(0) == h;
      assert env.now(h + Updates(calls)) < env.now((h + Updates(calls)) + [Update]);
      calls := calls + 1;
      finished := env.finished(h + Updates(calls));
      delta := env.now(h + Updates(calls)) - startTime;
    }
    StopsAtUnique(env, h, calls, PumpCalls(env, h));
  }

  /** With the clock advancing, `k` update calls take at least `k` milliseconds. */
  lemma {:induction false} ClockAdvances(env: Env, h: Trace, k: nat)
    requires Progress(env)
    ensures env.now(h + Updates(k)) >= env.now(h) + k
  {
    if k == 0 {
      assert h + Updates(0) == h;
    } else {
      ClockAdvances(env, h, k - 1);
      UpdatesSnoc(h, k - 1);
      var before := h + Updates(k - 1);
      assert env.now(before) < env.now(before + [Update]);
      assert before + [Update] == h + Updates(k);
    }
  }

  /**
   * The pump ends even when the engine never reports that it is finished:
   * it makes at most `MaxWaitMs` update calls.
   */
  lemma PumpBounded(env: Env, h: Trace)
    requires Progress(env)
    ensures PumpCalls(env, h) <= MaxWaitMs
  {
    ClockAdvances(env, h, MaxWaitMs);
    assert Stops(env, h, MaxWaitMs);
  }

  /** The pump stops at the first update call that reports the engine finished. */
  lemma PumpStopsWhenFinished(env: Env, h: Trace, k: nat)
    requires Progress(env)
    requires 1 <= k && env.finished(h + Updates(k))
    ensures PumpCalls(env, h) <= k
  {
    assert Stops(env, h, k);
  }
}

=== FILE: wrappers.dfy ===
/** Optional values shared by the other modules. */
module Wrappers {

  /** A value that may be missing: a parse that failed, a key that is absent. */
  datatype Option<+T> = None | Some(value: T)
}
